=== FILE: README.md ===
# Portfolio page data loader and stat counter, in Dafny

This project models the client-side logic of a one-page portfolio site:

- **`js/data-loader.js`**
  - `fetchData` reads JSON files through a page-wide cache.
  - The page is built from that data.
  - Three rotating widgets run on it:
    - the featured-projects slider;
    - the certificate gallery slider;
    - the training-course rotator.
  - The testimonial carousel can be dragged with mouse or touch.
- **`js/counter.js`** animates the numbers of the stats section. Each counts up from zero to the value it reads from its own text, and a one-shot latch stops the observer from starting the animation twice.

The modules follow the two files:

| file | module | what it holds |
|---|---|---|
| `js_values.dfy` | `JsValues` | JavaScript numbers that may be NaN, truncating `%`, and `Step`: a handler result that says whether the handler threw (state changed before a throw stays changed) |
| `sequences.dfy` | `Sequences` | `Filter`, `Take`, subsequences |
| `rotation.dfy` | `Rotation` | the `(i + d + n) % n` step and the `(i + 1) % n` tick shared by all rotators, active-flag rows, and the `DotList` object standing for the dots of a `querySelectorAll` list |
| `fetch_cache.dfy` | `FetchCache` | `fetchData` and `dataCache` |
| `list_shaping.dfy` | `ListShaping` | the list and string shaping of the render functions: filter categories and buttons, portfolio filter, featured selection, testimonial doubling, footer services, service dropdown, `tel:` links, hero title lines |
| `featured_slider.dfy` | `FeaturedSlider` | `changeSlide`, `goToSlide`, their interval, and the slider's render |
| `cert_slider.dfy` | `CertificateSlider` | `renderCertificatesSlider`, `changeCertSlide`, `goToCertSlide`, `updateCertSlider`, the auto-rotate tick |
| `training_rotator.dfy` | `TrainingRotator` | `renderTrainingCourses`, `changeTraining`, `goToTraining`, `updateTrainingDisplay`, the auto-rotate tick |
| `carousel_drag.dfy` | `CarouselDrag` | `enableCarouselDrag` |
| `counter.dfy` | `Counter` | `parseNumber`, `formatNumber`, the `+` display rule, the count-up loop of `animateStats`, the `hasAnimated` latch |

## Modelling

**Pure functions and objects.**
- Pure shaping functions are Dafny functions.
- State that the source keeps in module variables and DOM class lists is a `class` whose methods update it. Each method's `ensures` ties the new state to a pure transition function, and the lemmas are stated about those functions.

**Throwing handlers.** A handler that can throw a `TypeError` returns `Threw(state)`. The state is what the handler had changed before the throw; the throw aborts the rest of the handler.
- `changeSlide` and `goToSlide` throw when they index a missing slide or dot.
- `updateTrainingDisplay` throws when it reads `.title` of `undefined`.

**NaN.** `% 0`, `parseInt` of a string with no digits, and arithmetic with `undefined` produce NaN, written `NaN` in `JsValues.Num`.

**The shared dot list.** The featured slider's dots and the certificate dots share the class name `slider-dot`. `updateCertSlider` toggles every `.slider-dot` on the page. The model keeps one `DotList` for both, with the featured dots first, as in document order when the featured section comes first.

**Behaviours the proofs bring out:**
- Once `currentSlide` is out of range, every later featured tick throws: `FeaturedSlider.OutOfRangeSticks`. The training rotator recovers on its next tick: `TrainingRotator.BadIndexRecovers`. The page's own dots and buttons pass only indices in range, so such a state needs a direct call of `goToSlide` or `goToTraining` with a bad index.
- A certificate update rewrites the featured dots: `CertificateSlider.UpdateRewritesFeaturedDots` and `CertificateSlider.CertUpdateUnsettlesFeatured`.
- When the featured slider has dots, the dot of the certificate being shown is never the active one: `CertificateSlider.ShownSlideDotStaysInactive`.
- Certificate dots pass the certification's position in the full list to `goToCertSlide`, but the slides count only image-bearing certifications. When an image-less certification comes before the last image-bearing one, the last dot points past the last slide: `CertificateSlider.LastDotOverruns`.
- `renderTrainingCourses` calls `updateTrainingDisplay` before it wires anything. On an empty list that call throws, so no handler or interval ever runs the `% 0`. The rotator object keeps its index a number (`TrainingRotator.Rotator.Valid`), and then steps and ticks never give NaN: `TrainingRotator.Rotator.Render` and `TrainingRotator.NoNaNOnceWired`.
- A project whose category is literally `all` gives two filter buttons with the same filter, and both become active together: `ListShaping.CategoryNamedAllIsListedTwice`.
- Only `touchend` restarts the carousel animation. After a mouse drag it stays paused: `CarouselDrag.OnlyTouchEndResumes`.

## Model

| member | source | states |
|---|---|---|
| FetchCache.FetchData | js/data-loader.js:14-33 | only a truthy cache entry is a hit, returned without fetching and leaving the cache as it was; otherwise the network is asked, a loaded value is returned and stored under its path, and a failure returns null and stores nothing |
| FetchCache.DataCache.Fetch | js/data-loader.js:7-33 | the cache object's fetch returns what `FetchData` returns and leaves the cache `FetchData` describes |
| FetchCache.DataCache.constructor | js/data-loader.js:6 | the page-wide cache starts empty |
| FetchCache.OnlyOwnEntryChanges | js/data-loader.js:15-27 | a call changes no entry but its own path's, and a hit changes none |
| FetchCache.RepeatRequestHits | js/data-loader.js:15-27 | after a truthy value is loaded, a repeat request for the path returns it without going to the network, whatever the network would answer |
| FetchCache.FailureIsNotCached | js/data-loader.js:20-32 | a failed load returns null, stores nothing, and the next request goes to the network again |
| FetchCache.FalsyEntryIsRefetched | js/data-loader.js:15-27 | a stored falsy value is no hit: it is fetched again and overwritten by the new load |
| FetchCache.StoredAtMostOnce | js/data-loader.js:14-33 | when every load yields a truthy value, any run of requests stores each path at most once, and never once it is a hit |
| Rotation.Wrap | js/data-loader.js:422 | `(i + d + n) % n` lies in `0 .. n-1` whenever `i + d + n` is not negative |
| Rotation.StepNum | js/data-loader.js:638 | the step of a rotator index that may be NaN: NaN on a zero count or a NaN index, otherwise the wrapped step |
| Rotation.TickNum | js/data-loader.js:661 | the tick `(i + 1) % n`: NaN on a zero count or a NaN index, otherwise in range from any index that is not negative |
| Rotation.WrapForward | js/data-loader.js:422 | a forward step from the last item goes to the first, and from any other item to the next |
| Rotation.WrapBackward | js/data-loader.js:422 | a backward step from the first item goes to the last, and from any other item to the previous |
| Rotation.TickIsStepForward | js/data-loader.js:726 | from an index in range, the tick and the forward step agree |
| Rotation.BackUndoesForward | js/data-loader.js:702 | a forward and a backward step cancel, in either order |
| Rotation.AdvanceSplits | js/data-loader.js:408-410 | `a + b` ticks are `a` ticks followed by `b` ticks |
| Rotation.FullCycleReturns | js/data-loader.js:408-410 | as many ticks as there are items bring the rotator back to where it started |
| Rotation.FirstActive | js/data-loader.js:400-403 | a freshly rendered dot row has exactly the first dot active |
| Rotation.Highlight | js/data-loader.js:652-654 | the `index === current` toggle over a dot row: exactly the dot at the index is active when it is in range, otherwise none |
| Rotation.DotList.Toggle | js/data-loader.js:719-721 | the toggle loop over the dots sets each flag to "this is the current index" and keeps the row's length |
| ListShaping.Distinct | js/data-loader.js:293 | `new Set(...)`: every category is listed, nothing else, and nothing twice |
| ListShaping.DistinctInFirstAppearanceOrder | js/data-loader.js:293 | the set lists the categories in order of first appearance |
| ListShaping.Categories | js/data-loader.js:293 | the filter row starts with `all` |
| ListShaping.CategoriesListEachCategoryOnce | js/data-loader.js:293 | the filter row is `all` followed by each project category exactly once, in order of first appearance |
| ListShaping.ActiveButtons | js/data-loader.js:337-339 | one flag per button, active exactly when the button's category is the chosen filter; none is active when the chosen filter is not among them |
| ListShaping.ChosenFilterIsTheOnlyActive | js/data-loader.js:297-302 | when no category is named `all`, choosing any listed filter leaves exactly its own button active |
| ListShaping.CategoryNamedAllIsListedTwice | js/data-loader.js:293 | a project category named `all` is listed a second time, and choosing `all` then activates more than one button |
| ListShaping.Capitalize | js/data-loader.js:301 | only the first character is upper-cased and the length is kept |
| ListShaping.FilterPortfolio | js/data-loader.js:342-344 | `all` shows every project; any other filter shows exactly the projects of that category |
| ListShaping.FilterPortfolioDistributes | js/data-loader.js:342-344 | the filter decides project by project (a project stays exactly when the filter is `all` or its category) and the result for a concatenation is the concatenation of the results, so each kept project appears as often as in the list |
| ListShaping.FilterPortfolioKeepsOrder | js/data-loader.js:342-344 | the filtered projects keep their order in the list |
| ListShaping.SelectFeatured | js/data-loader.js:367-370 | at most eight projects: the first eight featured ones if any project is featured, otherwise the first eight projects |
| ListShaping.SelectFeaturedKeepsOrder | js/data-loader.js:367-370 | the selected projects keep their order in the list |
| ListShaping.Doubled | js/data-loader.js:457 | the carousel shows the testimonials twice over, in order |
| ListShaping.FooterServices | js/data-loader.js:210-212 | the footer lists the titles of the first four services, or all of them if there are fewer |
| ListShaping.ServiceOptions | js/data-loader.js:216-242 | the dropdown is the kept or new default option, one option per service title, then `Other` |
| ListShaping.TelNumber | js/data-loader.js:78 | the `tel:` number holds only digits and `+` signs, and every digit and `+` of the phone text appears in it |
| ListShaping.TelNumberKeepsOrder | js/data-loader.js:78 | the kept characters stay in their order |
| ListShaping.TelNumberDistributes | js/data-loader.js:78 | the cleaning decides character by character (a character stays exactly when it is a digit or `+`) and the number for a concatenation is the concatenation of the numbers, so each digit and `+` is kept as often as it occurs |
| ListShaping.SplitLines | js/data-loader.js:44 | splitting gives at least one line, and no line holds a line feed |
| ListShaping.SplitLinesRoundTrip | js/data-loader.js:44 | splitting the title on newlines loses nothing: joining the lines again gives the title back |
| ListShaping.Trim | js/data-loader.js:49 | a trimmed line neither starts nor ends with white space |
| ListShaping.TrimKeepsInterior | js/data-loader.js:49 | `trim()` removes only white space from the two ends |
| ListShaping.TitleLayout | js/data-loader.js:46-54 | `n` lines give `2n - 1` nodes, which start and end with a line, so nothing follows the last line |
| ListShaping.TitleLayoutAlternates | js/data-loader.js:46-54 | line `k` sits at place `2k`, and a break sits between each two neighbouring lines |
| ListShaping.HeroTitle | js/data-loader.js:44-54 | the title element gets one node per line of the title text and one break between each two lines |
| ListShaping.MissingTitleIsOneEmptyLine | js/data-loader.js:44 | a missing title shows a single empty line and no break |
| ListShaping.HeroTitleShowsEachLine | js/data-loader.js:44-54 | line `k` of the hero title shows the trimmed `k`-th line of the title text |
| FeaturedSlider.Move | js/data-loader.js:418-425 | throws with nothing changed when the current index is out of range; otherwise the slide and dot at the current index go inactive, the index becomes the target, and the target's slide and dot go active, or the move throws if the target has no slide or dot; when the current slide has no dot, the move throws after hiding only that slide; nothing else changes |
| FeaturedSlider.AfterChangeSlide | js/data-loader.js:413-426 | a no-op without slides; from a shown item, a step of one moves to the wrapped neighbour and shows it |
| FeaturedSlider.AfterGoToSlide | js/data-loader.js:428-441 | a no-op without slides; from a shown item, a click on a dot in range shows that item, and one out of range throws |
| FeaturedSlider.MoveKeepsOneActive | js/data-loader.js:418-425 | a move between items in range keeps exactly one slide and one featured dot active |
| FeaturedSlider.AfterTicks | js/data-loader.js:408-410 | ticks keep the number of slides and dots, and without slides they change nothing; a tick that throws does not stop the later ones, which start from the page as it was left |
| FeaturedSlider.TicksAdvance | js/data-loader.js:408-410 | `k` ticks from a shown item show the item `k` places on, circularly; they leave the dots after the featured ones alone; a full cycle returns to the start |
| FeaturedSlider.OutOfRangeSticks | js/data-loader.js:413-426 | once the index is out of range, every tick throws and changes nothing |
| FeaturedSlider.Slider.constructor | js/data-loader.js:355-406 | the render shows the first selected project, with its slide and its dot active, and puts the new dots before the page's other `.slider-dot`s |
| FeaturedSlider.Slider.MoveTo | js/data-loader.js:418-425 | the method's effect is `Move` |
| FeaturedSlider.Slider.ChangeSlide | js/data-loader.js:413-426 | the method's effect is `AfterChangeSlide` |
| FeaturedSlider.Slider.GoToSlide | js/data-loader.js:428-441 | the method's effect is `AfterGoToSlide` |
| FeaturedSlider.Slider.Tick | js/data-loader.js:408-410 | a tick is `changeSlide(1)` |
| CertificateSlider.SlideCount | js/data-loader.js:637 | the number of certifications with an image; zero exactly when none has one |
| CertificateSlider.DotTargets | js/data-loader.js:607-618 | one dot per image-bearing certification, in order; each dot's target is that certification's position in the full list; the targets strictly increase and cover every image-bearing certification |
| CertificateSlider.DotTargetsWhenAllHaveImages | js/data-loader.js:607-618 | when every certification has an image, dot `k` goes to slide `k` |
| CertificateSlider.LastDotOverruns | js/data-loader.js:607-618 | when an image-less certification comes before the last image-bearing one, the last dot's target is at least the slide count, so no slide sits there |
| CertificateSlider.InitialDots | js/data-loader.js:609-614 | the first dot is the only active one when the first certification has an image; otherwise no dot starts active |
| CertificateSlider.Update | js/data-loader.js:647-655 | the index stays; of all the page's `.slider-dot`s, exactly the one at the index is active when the index is in range, otherwise none |
| CertificateSlider.AfterChange | js/data-loader.js:636-640 | NaN without image-bearing certifications or from NaN; otherwise the wrapped step; the page keeps its dots, which always match the new index |
| CertificateSlider.AfterGoTo | js/data-loader.js:642-645 | the index becomes the clicked one, unchecked; the page keeps its dots, which match it |
| CertificateSlider.AfterTick | js/data-loader.js:657-664 | NaN without image-bearing certifications or from NaN; otherwise in range from an index that is not negative; the page keeps its dots, which match the new index |
| CertificateSlider.NaNIsSticky | js/data-loader.js:636-664 | with no image-bearing certification, steps and ticks give NaN; NaN stays NaN under steps and ticks, and only a dot click gives a number again |
| CertificateSlider.StepsStayInRange | js/data-loader.js:636-664 | from a slide in range, a step of one and a tick stay in range, and a tick is a forward step |
| CertificateSlider.ShownSlideDotStaysInactive | js/data-loader.js:652-654 | with featured dots on the page, the certificate dot of the shown slide is never the active one |
| CertificateSlider.UpdateRewritesFeaturedDots | js/data-loader.js:652-654 | an update sets the featured slider's dots to "exactly the one at the certificate index" |
| CertificateSlider.CertUpdateUnsettlesFeatured | js/data-loader.js:652-654 | when the two indices differ, a certificate update breaks the featured slider's "exactly the shown item's dot is active" |
| CertificateSlider.Slider.constructor | js/data-loader.js:598-634 | nothing happens without certifications; otherwise the dots are appended after the page's other dots and the interval starts, with the index at 0 |
| CertificateSlider.Slider.ChangeCertSlide | js/data-loader.js:636-640 | the method's effect is `AfterChange` |
| CertificateSlider.Slider.GoToCertSlide | js/data-loader.js:642-645 | the method's effect is `AfterGoTo` |
| CertificateSlider.Slider.Tick | js/data-loader.js:657-664 | the method's effect is `AfterTick` |
| TrainingRotator.Update | js/data-loader.js:711-722 | throws with nothing changed unless the index is an integer in range; otherwise shows that course and marks exactly its dot |
| TrainingRotator.AfterChange | js/data-loader.js:701-704 | on an empty list the index becomes NaN and the update throws; otherwise the index is the wrapped step |
| TrainingRotator.AfterGoTo | js/data-loader.js:706-721 | the index becomes the clicked one and the update succeeds exactly when it is in range; a click on a dot in range shows that course with exactly its dot active |
| TrainingRotator.AfterTick | js/data-loader.js:724-729 | on an empty list the index becomes NaN and the update throws; from an index that is not negative, the update succeeds and the index is in range |
| TrainingRotator.StepsKeepOneShown | js/data-loader.js:701-729 | from a shown course, a step of one and a tick show the wrapped neighbour with exactly its dot active, and a tick is a forward step |
| TrainingRotator.BadIndexRecovers | js/data-loader.js:706-729 | a click past the end throws, but the next tick or forward step shows a course again |
| TrainingRotator.NoNaNOnceWired | js/data-loader.js:701-729 | with a non-empty list and a numeric index, steps and ticks never give NaN |
| TrainingRotator.Rotator.constructor | js/data-loader.js:669-671 | the module state starts at index 0 with no courses, nothing shown and no dots |
| TrainingRotator.Rotator.UpdateDisplay | js/data-loader.js:711-722 | the method's effect is `Update` |
| TrainingRotator.Rotator.Render | js/data-loader.js:673-698 | the render throws exactly when the index is out of range of the loaded list, and then wires nothing; otherwise it shows the course, creates the dots with the first one active, and wires the handlers |
| TrainingRotator.Rotator.ChangeTraining | js/data-loader.js:701-704 | the method's effect is `AfterChange`, and the index stays a number |
| TrainingRotator.Rotator.GoToTraining | js/data-loader.js:706-709 | the method's effect is `AfterGoTo`, and the index stays a number |
| TrainingRotator.Rotator.Tick | js/data-loader.js:724-729 | the method's effect is `AfterTick`, and the index stays a number |
| CarouselDrag.Initial | js/data-loader.js:477-480 | the carousel starts neither dragging nor paused, at offset 0 |
| CarouselDrag.Handle | js/data-loader.js:482-525 | a mouse press starts a drag, a release or leave ends it; a press or touch pauses the animation and only `touchend` resumes it; only moves change the offset; a mouse move without a drag changes nothing |
| CarouselDrag.MouseDragFollowsPointer | js/data-loader.js:482-507 | a press then a move shifts the offset by twice the pointer's travel |
| CarouselDrag.MovesAreAbsolute | js/data-loader.js:500-507 | a run of mouse moves ends where its last move alone would |
| CarouselDrag.MouseMoveWithoutDragIsIgnored | js/data-loader.js:490-502 | at the start and after a release or leave, a mouse move changes nothing |
| CarouselDrag.TouchDragFollowsFinger | js/data-loader.js:510-521 | a touch then a move shifts the offset by twice the finger's travel |
| CarouselDrag.TouchMoveBeforeStartIsNaN | js/data-loader.js:516-521 | a touch move before any press computes with `undefined` and leaves the offset NaN |
| CarouselDrag.OnlyTouchEndResumes | js/data-loader.js:482-525 | once paused, the animation stays paused through any run of events without a `touchend` |
| CarouselDrag.Carousel.constructor | js/data-loader.js:476-480 | the closure starts in the initial state |
| CarouselDrag.Carousel.Dispatch | js/data-loader.js:482-525 | each listener's effect is `Handle` |
| Counter.Digits | js/counter.js:32 | removing every non-digit keeps exactly the digits, in order; empty exactly when there is none |
| Counter.ParseNumber | js/counter.js:31-33 | NaN exactly when the text has no digit; otherwise a number that is not negative |
| Counter.FormatNumber | js/counter.js:24-28 | `NaN` for NaN, otherwise the decimal digits without leading zeros, after a minus sign for a negative number |
| Counter.FormatThenParse | js/counter.js:24-33 | parsing a formatted number gives back a number that is not negative, and its magnitude; a formatted NaN parses as NaN |
| Counter.ParseSkipsSign | js/counter.js:31-33 | a leading minus is dropped: `-m` parses as `m` |
| Counter.ParseSkipsNonDigit | js/counter.js:31-33 | a non-digit anywhere in the text does not change the parse |
| Counter.ParsePlusExample | js/counter.js:31-33 | `"150+"` parses as 150 |
| Counter.ParseCommaExample | js/counter.js:31-33 | `"1,200"` parses as 1200 |
| Counter.ParseNaNText | js/counter.js:31-33 | a text with no digit parses as NaN |
| Counter.StatText | js/counter.js:81-88 | the shown text is the number's own text followed, exactly when asked, by one `+` at the very end and nowhere else |
| Counter.ParseIgnoresPlus | js/counter.js:65-66 | a trailing `+` does not change the parse |
| Counter.FinalTextKeepsFormat | js/counter.js:64-81 | the final text is exactly the decimal digits of the parsed target with `+` appended exactly when the original text held one, and it reads back as the target |
| Counter.CountUp | js/counter.js:72-91 | 99 ticks (none for a target of 0), where tick `i` shows the floor of the running value `(i + 1) * target / 100`, each below the target and never decreasing; the last frame shows the target |
| Counter.AnimateStat | js/counter.js:60-93 | a text without digits never finishes and shows `NaN` frames; any other counts up to its parsed number through the floors of `(i + 1) * target / 100`, as `CountUp` states |
| Counter.Deliver | js/counter.js:47-53 | after a batch the latch is closed exactly when it was or some entry intersects, and the animation starts once exactly when it was open and some entry intersects |
| Counter.AnimatesAtMostOnce | js/counter.js:45-54 | over any number of batches one observer starts the animation at most once, never when already latched, and exactly once when some entry intersects |
| Counter.StatsObserver.constructor | js/counter.js:45 | the latch starts open with no run |
| Counter.StatsObserver.OnEntries | js/counter.js:47-54 | the entry loop sets the latch and counts runs as `Deliver` does, keeping "one run exactly when latched" |

## Left out

- The console messages `fetchData` writes (js/data-loader.js:16, 21, 28, 31) are left out. They are output only and change neither the cache nor the result.
- Network access, timers and intervals (`setInterval`, `setTimeout`, the 16 ms, 20 ms, 5 s and 6 s periods, the staggered start of each stat) are left out. Responses and ticks are inputs; an interval is a method or function called once per tick.
- The `await` ordering of the render functions and `initializeApp`'s `try`/`catch` are left out. In the source, a render that throws ends `initializeApp` there, which skips the renders after it.
- The HTML built with template strings is left out. So are CSS classes other than `active`, the slider's `translateX` transform, and the carousel's cursor and transform style. The model keeps the values those derive from.
- The render functions that only copy fields into the page are left out: stats, experience, clients, courses, qualifications, certifications list, tools, footer and the WhatsApp links.
- The guards `if (!data || !data.x) return` and `if (!element) return` are left out. The model starts from loaded, well-formed lists and assumes every element the code looks up exists.
- `js/main.js` is not part of this model.
- `animateCounter` (js/counter.js:7-21) is left out because nothing calls it.
- Re-running `initCounterAnimation` on a `statsLoaded` event makes a new observer with its own latch. `Counter.StatsObserver` models one observer.
- `FetchCache.FetchData`: `dataCache` is a plain object, so the inherited keys `__proto__`, `constructor` and the like read as truthy hits. The model's cache is a map without them. Concurrent requests for one path before the first resolves are also left out.
- `Counter.CountUp` uses exact arithmetic. The source adds `target / 100` in floating point 100 times, so rounding can take one tick more or fewer. `parseInt` losing precision above 2^53 is also left out.
- `Counter.FormatNumber` writes plain decimal digits at any size. `Number.prototype.toString` switches to exponent form from 1e21 on; that form is not modelled.
- `Counter.ParseNumber` models `parseInt` on a string of ASCII digits only, which is all `replace(/[^0-9]/g, '')` leaves.
- `ListShaping.UpperAscii` maps only `a`-`z`; `toUpperCase` on other letters is left out. Strings are sequences of characters rather than of UTF-16 code units.
- `encodeURIComponent` of the WhatsApp message is left out.
- `CarouselDrag.Handle`: pointer coordinates and offsets are integers. The source's `pageX` and `offsetLeft` can be fractional numbers.
- `CertificateSlider.Slider`: the model assumes the featured slider's dots come before the certificate dots in the document. The opposite order is not modelled.
- `CertificateSlider.Certification`: a missing image is the empty string. Other falsy values are not distinguished.
- `TrainingRotator.Training`: a course's fields are strings. Reading a missing field gives `undefined` in the source, which the display would show as text.

=== FILE: carousel_drag.dfy ===
/**
  `enableCarouselDrag` in js/data-loader.js: the closure variables
  `isDragging`, `startX`, `scrollLeft` and `currentTransform` of the
  testimonial carousel, and the paused/running state of its CSS animation,
  driven by mouse and touch events. Pointer coordinates are integers here.
 */
module CarouselDrag {
  import opened JsValues

  /** The closure variables and the animation state. `startX` and
      `scrollLeft` start out `undefined`, which behaves like NaN in the
      arithmetic of a move, so both are numbers that may be NaN. */
  datatype DragState = DragState(
    isDragging: bool,
    startX: Num,
    scrollLeft: Num,
    transform: Num,
    paused: bool)

  /** The state right after `enableCarouselDrag(carousel)`. */
  function Initial(): (r: DragState)
    ensures !r.isDragging && r.transform == Int(0) && !r.paused
  {
    DragState(false, NaN, NaN, Int(0), false)
  }

  /** The events the carousel listens to, with the coordinates they read. */
  datatype Event =
    | MouseDown(pageX: int, offsetLeft: int)
    | MouseLeave
    | MouseUp
    | MouseMove(pageX: int, offsetLeft: int)
    | TouchStart(pageX: int)
    | TouchMove(pageX: int)
    | TouchEnd

  /** `a + b` where either may be NaN. */
  function Add(a: Num, b: Num): (r: Num)
    ensures r.NaN? <==> a.NaN? || b.NaN?
    ensures r.Int? ==> r.v - b.v == a.v
  {
    if a.NaN? || b.NaN? then NaN else Int(a.v + b.v)
  }

  /** `(x - startX) * 2`. */
  function Walk(x: int, startX: Num): (r: Num)
    ensures r.NaN? <==> startX.NaN?
    ensures r.Int? ==> r.v == 2 * (x - startX.v)
  {
    if startX.NaN? then NaN else Int((x - startX.v) * 2)
  }

  /** The state after one event handler. Mouse moves count only while
      dragging; touch moves always count; only `touchend` restarts the
      animation. */
  function Handle(s: DragState, e: Event): (r: DragState)
    ensures r.isDragging <==> e.MouseDown? || (s.isDragging && !e.MouseUp? && !e.MouseLeave?)
    ensures r.paused <==> e.MouseDown? || e.TouchStart? || (s.paused && !e.TouchEnd?)
    ensures !e.MouseMove? && !e.TouchMove? ==> r.transform == s.transform
    ensures e.MouseMove? && !s.isDragging ==> r == s
  {
    match e
    case MouseDown(x, off) =>
      s.(isDragging := true, startX := Int(x - off), scrollLeft := s.transform, paused := true)
    case MouseLeave => s.(isDragging := false)
    case MouseUp => s.(isDragging := false)
    case MouseMove(x, off) =>
      if !s.isDragging then s
      else s.(transform := Add(s.scrollLeft, Walk(x - off, s.startX)))
    case TouchStart(x) => s.(startX := Int(x), scrollLeft := s.transform, paused := true)
    case TouchMove(x) => s.(transform := Add(s.scrollLeft, Walk(x, s.startX)))
    case TouchEnd => s.(paused := false)
  }

  /** The state after a run of events, in order. */
  function Replay(s: DragState, events: seq<Event>): (r: DragState)
    decreases |events|
  {
    if events == [] then s else Replay(Handle(s, events[0]), events[1..])
  }

  /** A mouse drag moves the carousel by twice the pointer's travel since
      the button went down, measured from where the carousel then stood;
      the carousel's own offset cancels out. */
  lemma MouseDragFollowsPointer(s: DragState, x0: int, x1: int, off: int)
    requires s.transform.Int?
    ensures Replay(s, [MouseDown(x0, off), MouseMove(x1, off)]).transform ==
      Int(s.transform.v + 2 * (x1 - x0))
  {
    var events := [MouseDown(x0, off), MouseMove(x1, off)];
    var down := Handle(s, events[0]);
    assert events[1..] == [MouseMove(x1, off)];
    assert Replay(down, events[1..]) == Replay(Handle(down, events[1]), []);
  }

  /** Moves do not accumulate: each one sets the offset from the anchor
      taken when the drag started, so only the last position counts. */
  lemma {:induction false} MovesAreAbsolute(s: DragState, xs: seq<int>, off: int)
    requires s.isDragging
    requires |xs| > 0
    ensures Replay(s, seq(|xs|, i requires 0 <= i < |xs| => MouseMove(xs[i], off))) ==
      Handle(s, MouseMove(xs[|xs| - 1], off))
    decreases |xs|
  {
    var moves := seq(|xs|, i requires 0 <= i < |xs| => MouseMove(xs[i], off));
    var t := Handle(s, moves[0]);
    if |xs| == 1 {
      assert moves[1..] == [];
    } else {
      var rest := xs[1..];
      assert moves[1..] == seq(|rest|, i requires 0 <= i < |rest| => MouseMove(rest[i], off));
      MovesAreAbsolute(t, rest, off);
    }
  }

  /** Without a button held, a mouse move changes nothing; this is the
      state at the start and after every `mouseup` or `mouseleave`. */
  lemma MouseMoveWithoutDragIsIgnored(s: DragState, e: Event, x: int, off: int)
    requires e.MouseUp? || e.MouseLeave?
    ensures Handle(Initial(), MouseMove(x, off)) == Initial()
    ensures Handle(Handle(s, e), MouseMove(x, off)) == Handle(s, e)
  {
  }

  /** A touch drag follows the finger the same way. */
  lemma TouchDragFollowsFinger(s: DragState, x0: int, x1: int)
    requires s.transform.Int?
    ensures Replay(s, [TouchStart(x0), TouchMove(x1)]).transform ==
      Int(s.transform.v + 2 * (x1 - x0))
  {
    var events := [TouchStart(x0), TouchMove(x1)];
    var start := Handle(s, events[0]);
    assert events[1..] == [TouchMove(x1)];
    assert Replay(start, events[1..]) == Replay(Handle(start, events[1]), []);
  }

  /** A touch move that no touch or mouse press preceded computes with
      `undefined` and leaves the offset NaN. */
  lemma TouchMoveBeforeStartIsNaN(x: int)
    ensures Handle(Initial(), TouchMove(x)).transform == NaN
  {
  }

  /** Mouse events never restart the animation: once paused, it stays
      paused until a `touchend`. */
  lemma {:induction false} OnlyTouchEndResumes(s: DragState, events: seq<Event>)
    requires s.paused
    requires forall i :: 0 <= i < |events| ==> !events[i].TouchEnd?
    ensures Replay(s, events).paused
    decreases |events|
  {
    if events != [] {
      OnlyTouchEndResumes(Handle(s, events[0]), events[1..]);
    }
  }

  /** The carousel's closure as an object whose fields the listeners
      update. */
  class Carousel {
    var isDragging: bool
    var startX: Num
    var scrollLeft: Num
    var transform: Num
    var paused: bool

    function State(): DragState
      reads this
    {
      DragState(isDragging, startX, scrollLeft, transform, paused)
    }

    /** `enableCarouselDrag(carousel)`. */
    constructor ()
      ensures State() == Initial()
    {
      isDragging := false;
      startX := NaN;
      scrollLeft := NaN;
      transform := Int(0);
      paused := false;
    }

    /** The listener for `e`. */
    method Dispatch(e: Event)
      modifies this
      ensures State() == Handle(old(State()), e)
    {
      match e
      case MouseDown(x, off) =>
        isDragging := true;
        startX := Int(x - off);
        scrollLeft := transform;
        paused := true;
      case MouseLeave =>
        isDragging := false;
      case MouseUp =>
        isDragging := false;
      case MouseMove(x, off) =>
        if isDragging {
          transform := Add(scrollLeft, Walk(x - off, startX));
        }
      case TouchStart(x) =>
        startX := Int(x);
        scrollLeft := transform;
        paused := true;
      case TouchMove(x) =>
        transform := Add(scrollLeft, Walk(x, startX));
      case TouchEnd =>
        paused := false;
    }
  }
}

=== FILE: cert_slider.dfy ===
/**
  The certificate gallery slider of js/data-loader.js: the module variable
  `currentCertSlide`, one slide and one `.slider-dot` per certification
  that has an image, and the handlers `changeCertSlide`, `goToCertSlide`,
  `updateCertSlider` and the auto-rotate tick.
 */
module CertificateSlider {
  import opened JsValues
  import opened Sequences
  import opened Rotation
  import FeaturedSlider

  /** A certification record; a missing image is the empty string. */
  datatype Certification = Certification(name: string, image: string)

  /** `cert.image` is truthy. */
  predicate HasImage(c: Certification) {
    c.image != ""
  }

  /** `certificationsData.filter(c => c.image).length`: the number of
      slides, the modulus of `changeCertSlide` and of the tick. */
  function SlideCount(certs: seq<Certification>): (r: nat)
    ensures r <= |certs|
    ensures r == 0 <==> forall i :: 0 <= i < |certs| ==> !HasImage(certs[i])
  {
    FilterEmpty(certs, HasImage);
    |Filter(certs, HasImage)|
  }

  /** The index that each dot's click handler passes to `goToCertSlide`,
      for the dots of `certs` when `certs` starts at position `base` of
      the full list. */
  function DotTargetsFrom(certs: seq<Certification>, base: nat): (r: seq<nat>)
    ensures |r| <= |certs|
  {
    if certs == [] then []
    else (if HasImage(certs[0]) then [base] else []) + DotTargetsFrom(certs[1..], base + 1)
  }

  /** There is one dot per slide. */
  lemma {:induction false} DotTargetsCount(certs: seq<Certification>, base: nat)
    ensures |DotTargetsFrom(certs, base)| == |Filter(certs, HasImage)|
  {
    if certs != [] {
      DotTargetsCount(certs[1..], base + 1);
    }
  }

  /** Each target is the full-list position of a certification with an
      image, at or after the dot's own position. */
  lemma {:induction false} DotTargetsInRange(certs: seq<Certification>, base: nat, k: nat)
    requires k < |DotTargetsFrom(certs, base)|
    ensures base + k <= DotTargetsFrom(certs, base)[k] < base + |certs|
    ensures HasImage(certs[DotTargetsFrom(certs, base)[k] - base])
  {
    var tail := certs[1..];
    var rest := DotTargetsFrom(tail, base + 1);
    var r := DotTargetsFrom(certs, base);
    if HasImage(certs[0]) && k == 0 {
      assert r[0] == base;
    } else {
      var k' := if HasImage(certs[0]) then k - 1 else k;
      assert r[k] == rest[k'];
      DotTargetsInRange(tail, base + 1, k');
      var x := rest[k'] - (base + 1);
      assert tail[x] == certs[x + 1];
    }
  }

  /** The targets increase strictly from dot to dot. */
  lemma {:induction false} DotTargetsIncrease(certs: seq<Certification>, base: nat, k: nat, m: nat)
    requires k < m < |DotTargetsFrom(certs, base)|
    ensures DotTargetsFrom(certs, base)[k] < DotTargetsFrom(certs, base)[m]
  {
    var tail := certs[1..];
    var rest := DotTargetsFrom(tail, base + 1);
    var head: seq<nat> := if HasImage(certs[0]) then [base] else [];
    assert DotTargetsFrom(certs, base) == head + rest;
    if k < |head| {
      DotTargetsInRange(tail, base + 1, m - 1);
    } else {
      DotTargetsIncrease(tail, base + 1, k - |head|, m - |head|);
    }
  }

  /** Every certification with an image has a dot. */
  lemma {:induction false} DotTargetsComplete(certs: seq<Certification>, base: nat, i: nat)
    requires i < |certs| && HasImage(certs[i])
    ensures base + i in DotTargetsFrom(certs, base)
  {
    var tail := certs[1..];
    var head: seq<nat> := if HasImage(certs[0]) then [base] else [];
    assert DotTargetsFrom(certs, base) == head + DotTargetsFrom(tail, base + 1);
    if i > 0 {
      assert tail[i - 1] == certs[i];
      DotTargetsComplete(tail, base + 1, i - 1);
    }
  }

  /** Dot `k` goes to a full-list position at or after `k` whose
      certification has an image. */
  predicate PointsAtImages(r: seq<nat>, certs: seq<Certification>) {
    forall k :: 0 <= k < |r| ==> k <= r[k] < |certs| && HasImage(certs[r[k]])
  }

  /** The targets increase strictly from dot to dot. */
  predicate Increasing(r: seq<nat>) {
    forall k, m :: 0 <= k < m < |r| ==> r[k] < r[m]
  }

  /** Every certification with an image has a dot. */
  predicate CoversImages(r: seq<nat>, certs: seq<Certification>) {
    forall i :: 0 <= i < |certs| && HasImage(certs[i]) ==> i in r
  }

  lemma DotTargetsPointAtImages(certs: seq<Certification>)
    ensures PointsAtImages(DotTargetsFrom(certs, 0), certs)
  {
    var r := DotTargetsFrom(certs, 0);
    forall k | 0 <= k < |r| ensures k <= r[k] < |certs| && HasImage(certs[r[k]]) {
      DotTargetsInRange(certs, 0, k);
    }
  }

  lemma DotTargetsAreIncreasing(certs: seq<Certification>)
    ensures Increasing(DotTargetsFrom(certs, 0))
  {
    var r := DotTargetsFrom(certs, 0);
    forall k, m | 0 <= k < m < |r| ensures r[k] < r[m] {
      DotTargetsIncrease(certs, 0, k, m);
    }
  }

  lemma DotTargetsCoverImages(certs: seq<Certification>)
    ensures CoversImages(DotTargetsFrom(certs, 0), certs)
  {
    forall i | 0 <= i < |certs| && HasImage(certs[i]) ensures i in DotTargetsFrom(certs, 0) {
      DotTargetsComplete(certs, 0, i);
    }
  }

  /** The click targets of the rendered dots, in order: dot `k` goes to the
      full-list position of the `k`-th certification that has an image. */
  function DotTargets(certs: seq<Certification>): (r: seq<nat>)
    ensures |r| == SlideCount(certs)
    ensures PointsAtImages(r, certs) && Increasing(r) && CoversImages(r, certs)
  {
    DotTargetsCount(certs, 0);
    DotTargetsPointAtImages(certs);
    DotTargetsAreIncreasing(certs);
    DotTargetsCoverImages(certs);
    DotTargetsFrom(certs, 0)
  }

  /** When every certification has an image, dot `k` goes to slide `k`. */
  lemma DotTargetsWhenAllHaveImages(certs: seq<Certification>)
    requires forall i :: 0 <= i < |certs| ==> HasImage(certs[i])
    ensures DotTargets(certs) == seq(|certs|, k => k)
  {
    FilterKeepsAll(certs, HasImage);
    var r := DotTargets(certs);
    assert |r| == |certs|;
    forall k | 0 <= k < |r| ensures r[k] == k {
      DotTargetsAreIndices(r, certs, k);
    }
  }

  /** A strictly increasing sequence of `|certs|` positions in `certs`,
      each at or after its own index, is `0 .. |certs|-1`. */
  lemma DotTargetsAreIndices(r: seq<nat>, certs: seq<Certification>, k: nat)
    requires |r| == |certs| && k < |r|
    requires PointsAtImages(r, certs) && Increasing(r)
    ensures r[k] == k
  {
    var n := |r|;
    if r[k] > k {
      var j := k;
      while j < n - 1
        invariant k <= j < n && r[j] > j
      {
        assert r[j + 1] > r[j];
        j := j + 1;
      }
      assert false;
    }
  }

  /** The certificate index mismatch: when a certification without an
      image precedes the last one with an image, the last dot sends
      `goToCertSlide` a position that is not a slide index at all. */
  lemma LastDotOverruns(certs: seq<Certification>, j: nat, last: nat)
    requires j < last < |certs|
    requires !HasImage(certs[j]) && HasImage(certs[last])
    requires forall m :: last < m < |certs| ==> !HasImage(certs[m])
    ensures last in DotTargets(certs)
    ensures last >= SlideCount(certs)
  {
    assert last in DotTargets(certs);
    FilterBeforeLast(certs, j, last, HasImage);
  }

  /** When nothing after position `last` passes the test and something
      before it fails, the filter keeps at most `last` elements. */
  lemma FilterBeforeLast<T>(xs: seq<T>, j: nat, last: nat, keep: T -> bool)
    requires j < last < |xs| && !keep(xs[j])
    requires forall m :: last < m < |xs| ==> !keep(xs[m])
    ensures |Filter(xs, keep)| <= last
  {
    var front, back := xs[..last + 1], xs[last + 1..];
    assert xs == front + back;
    FilterConcat(front, back, keep);
    assert Filter(back, keep) == [] by {
      assert forall i :: 0 <= i < |back| ==> back[i] == xs[last + 1 + i];
      FilterEmpty(back, keep);
    }
    assert front[j] == xs[j];
    FilterDropsOne(front, j, keep);
  }

  /** An element that fails the test costs the filter one place. */
  lemma {:induction false} FilterDropsOne<T>(xs: seq<T>, j: nat, keep: T -> bool)
    requires j < |xs| && !keep(xs[j])
    ensures |Filter(xs, keep)| <= |xs| - 1
  {
    if j > 0 {
      assert xs[1..][j - 1] == xs[j];
      FilterDropsOne(xs[1..], j - 1, keep);
    }
  }

  /** With an image on the first certification, the first dot, and only
      it, goes to position 0. */
  lemma FirstDotGoesToZero(certs: seq<Certification>)
    requires |certs| > 0 && HasImage(certs[0])
    ensures var t := DotTargets(certs);
      |t| > 0 && t[0] == 0 && forall k :: 0 < k < |t| ==> t[k] != 0
  {
    var t := DotTargets(certs);
    assert 0 in t;
    assert t[0] == 0;
  }

  /** Without an image on the first certification, no dot goes to
      position 0. */
  lemma NoDotGoesToZero(certs: seq<Certification>)
    requires |certs| > 0 && !HasImage(certs[0])
    ensures var t := DotTargets(certs); forall k :: 0 <= k < |t| ==> t[k] != 0
  {
  }

  /** The flags `index === 0` for the dots going to positions `t`. */
  function ZeroFlags(t: seq<nat>): (r: seq<bool>)
    ensures |r| == |t| && forall k :: 0 <= k < |t| ==> (r[k] <==> t[k] == 0)
  {
    seq(|t|, k requires 0 <= k < |t| => t[k] == 0)
  }

  /** The `active` flags the rendered dots start with: `index === 0`,
      where `index` is the full-list position. Only a first certification
      with an image yields an active dot. */
  function InitialDots(certs: seq<Certification>): (r: seq<bool>)
    ensures |r| == SlideCount(certs)
    ensures |certs| > 0 && HasImage(certs[0]) ==> ExactlyActive(r, 0)
    ensures |certs| > 0 && !HasImage(certs[0]) ==> forall k :: 0 <= k < |r| ==> !r[k]
  {
    var t := DotTargets(certs);
    if |certs| > 0 && HasImage(certs[0]) then
      FirstDotGoesToZero(certs);
      ZeroFlags(t)
    else if |certs| > 0 then
      NoDotGoesToZero(certs);
      ZeroFlags(t)
    else
      ZeroFlags(t)
  }

  /** What the handlers read and write: `currentCertSlide` and the active
      flags of every `.slider-dot` on the page, in document order. */
  datatype View = View(current: Num, dots: seq<bool>)

  /** `updateCertSlider`: every dot on the page whose page-wide position is
      `currentCertSlide` becomes active, every other one inactive. */
  function Update(s: View): (r: View)
    ensures r.current == s.current && |r.dots| == |s.dots|
    ensures s.current.Int? && 0 <= s.current.v < |s.dots| ==> ExactlyActive(r.dots, s.current.v)
    ensures !(s.current.Int? && 0 <= s.current.v < |s.dots|) ==>
      forall j :: 0 <= j < |r.dots| ==> !r.dots[j]
  {
    s.(dots := Highlight(|s.dots|, s.current))
  }

  /** `changeCertSlide(direction)`: no guard against a zero slide count,
      so without image-bearing certifications the index becomes NaN. */
  function AfterChange(s: View, certs: seq<Certification>, direction: int): (r: View)
    ensures SlideCount(certs) == 0 ==> r.current == NaN
    ensures SlideCount(certs) > 0 && s.current.Int? ==>
      r.current == Int(Wrap(s.current.v, direction, SlideCount(certs)))
    ensures s.current.NaN? ==> r.current == NaN
    ensures |r.dots| == |s.dots|
    ensures r == Update(r)
  {
    Update(s.(current := StepNum(s.current, direction, SlideCount(certs))))
  }

  /** `goToCertSlide(index)`: the index is taken as given. */
  function AfterGoTo(s: View, index: int): (r: View)
    ensures r.current == Int(index)
    ensures |r.dots| == |s.dots|
    ensures r == Update(r)
  {
    Update(s.(current := Int(index)))
  }

  /** One tick of the five-second auto-rotate interval. */
  function AfterTick(s: View, certs: seq<Certification>): (r: View)
    ensures SlideCount(certs) == 0 || s.current.NaN? ==> r.current == NaN
    ensures SlideCount(certs) > 0 && s.current.Int? && s.current.v >= 0 ==>
      r.current.Int? && 0 <= r.current.v < SlideCount(certs)
    ensures |r.dots| == |s.dots|
    ensures r == Update(r)
  {
    Update(s.(current := TickNum(s.current, SlideCount(certs))))
  }

  /** Without an image-bearing certification a step or a tick leaves the
      index NaN and no dot on the page active, and from NaN no step or tick
      ever leads back: only a dot click does. */
  lemma NaNIsSticky(s: View, certs: seq<Certification>, direction: int, index: int)
    ensures SlideCount(certs) == 0 ==>
      AfterChange(s, certs, direction).current.NaN? && AfterTick(s, certs).current.NaN? &&
      (forall j :: 0 <= j < |s.dots| ==> !AfterChange(s, certs, direction).dots[j]) &&
      (forall j :: 0 <= j < |s.dots| ==> !AfterTick(s, certs).dots[j])
    ensures s.current.NaN? ==>
      AfterChange(s, certs, direction).current.NaN? && AfterTick(s, certs).current.NaN?
    ensures AfterGoTo(s, index).current.Int?
  {
  }

  /** From a slide index in range, a step of one either way and a tick all
      land on a slide index in range, and a tick is a step forward. */
  lemma StepsStayInRange(s: View, certs: seq<Certification>, direction: int)
    requires s.current.Int? && 0 <= s.current.v < SlideCount(certs)
    requires direction == 1 || direction == -1
    ensures AfterChange(s, certs, direction).current.Int?
    ensures 0 <= AfterChange(s, certs, direction).current.v < SlideCount(certs)
    ensures AfterTick(s, certs) == AfterChange(s, certs, 1)
  {
    TickIsStepForward(s.current.v, SlideCount(certs));
  }

  /** The page lists the featured slider's `featured` dots first and the
      certificate dots after them. An update marks the page-wide position
      `currentCertSlide`, so the dot of the shown certificate slide, which
      sits `featured` places further on, is never the active one. */
  lemma ShownSlideDotStaysInactive(s: View, featured: nat)
    requires s.current.Int? && s.current.v >= 0
    requires featured > 0 && featured + s.current.v < |s.dots|
    ensures !Update(s).dots[featured + s.current.v]
  {
  }

  /** An update rewrites the featured slider's dots: among them exactly
      the one at `currentCertSlide` is active, or none. */
  lemma UpdateRewritesFeaturedDots(s: View, featured: nat)
    requires featured <= |s.dots|
    ensures Update(s).dots[..featured] == Highlight(featured, s.current)
  {
  }

  /** So a certificate update breaks the featured slider's "exactly the
      shown item's dot is active" whenever the two indices differ. */
  lemma CertUpdateUnsettlesFeatured(f: FeaturedSlider.View, i: int, s: View)
    requires FeaturedSlider.Shows(f, i)
    requires s.dots == f.dots && s.current != Int(i)
    ensures !FeaturedSlider.Shows(f.(dots := Update(s).dots), i)
  {
    var d := Update(s).dots;
    assert !d[i];
    assert d[..|f.slides|][i] == d[i];
  }

  /** The slider as a page object. `rotating` says whether the interval
      was started; the dot list is the page's, shared with the featured
      slider. */
  class Slider {
    var current: Num
    const certs: seq<Certification>
    const dots: DotList
    var rotating: bool

    function Snapshot(): View
      reads this, dots
    {
      View(current, dots.active)
    }

    /** `renderCertificatesSlider` with the loaded certifications: nothing
        for an empty list; otherwise one dot per certification with an
        image, appended after the dots already on the page, and the
        interval started. The render does not call `updateCertSlider`. */
    constructor (certs: seq<Certification>, dots: DotList)
      modifies dots
      ensures this.certs == certs && this.dots == dots
      ensures current == Int(0)
      ensures rotating <==> |certs| > 0
      ensures dots.active == old(dots.active) + (if |certs| > 0 then InitialDots(certs) else [])
    {
      current := Int(0);
      this.certs := certs;
      this.dots := dots;
      rotating := |certs| > 0;
      new;
      if |certs| > 0 {
        dots.active := dots.active + InitialDots(certs);
      }
    }

    /** `changeCertSlide(direction)`. */
    method ChangeCertSlide(direction: int)
      modifies this, dots
      ensures Snapshot() == AfterChange(old(Snapshot()), certs, direction)
      ensures rotating == old(rotating)
    {
      var total := SlideCount(certs);
      current := StepNum(current, direction, total);
      dots.Toggle(current);
    }

    /** `goToCertSlide(index)`, what a dot click runs. */
    method GoToCertSlide(index: int)
      modifies this, dots
      ensures Snapshot() == AfterGoTo(old(Snapshot()), index)
      ensures rotating == old(rotating)
    {
      current := Int(index);
      dots.Toggle(current);
    }

    /** One tick of the auto-rotate interval, which exists only once the
        slider has been rendered with certifications. */
    method Tick()
      requires rotating
      modifies this, dots
      ensures Snapshot() == AfterTick(old(Snapshot()), certs)
      ensures rotating
    {
      var total := SlideCount(certs);
      current := TickNum(current, total);
      dots.Toggle(current);
    }
  }
}

=== FILE: counter.dfy ===
/**
  The stats counter of js/counter.js: `parseNumber`, `formatNumber`, the
  count-up of `animateStats` with its "+" display rule, and the
  `hasAnimated` latch of `initCounterAnimation`.
 */
module Counter {
  import opened JsValues
  import opened Sequences

  /** `str.replace(/[^0-9]/g, '')`: the digits of `str`, in order. */
  function Digits(s: string): (r: string)
    ensures |r| <= |s|
    ensures forall i :: 0 <= i < |r| ==> IsDigit(r[i])
    ensures r == [] <==> forall i :: 0 <= i < |s| ==> !IsDigit(s[i])
  {
    FilterEmpty(s, IsDigit);
    Filter(s, IsDigit)
  }

  function DigitValue(c: char): (r: nat)
    requires IsDigit(c)
    ensures r < 10
  {
    (c as int) - ('0' as int)
  }

  function DigitChar(d: nat): (c: char)
    requires d < 10
    ensures IsDigit(c) && DigitValue(c) == d
  {
    ('0' as int + d) as char
  }

  /** The value of a string of decimal digits, most significant first. */
  function DecimalValue(ds: string): (r: nat)
    requires forall i :: 0 <= i < |ds| ==> IsDigit(ds[i])
    decreases |ds|
  {
    if ds == [] then 0
    else DecimalValue(ds[..|ds| - 1]) * 10 + DigitValue(ds[|ds| - 1])
  }

  /** `parseNumber(str)`: `parseInt` of the digits of `str`, which is NaN
      when there are none (`parseInt('')`). */
  function ParseNumber(s: string): (r: Num)
    ensures r.NaN? <==> forall i :: 0 <= i < |s| ==> !IsDigit(s[i])
    ensures r.Int? ==> r.v >= 0
  {
    var ds := Digits(s);
    if ds == [] then NaN else Int(DecimalValue(ds))
  }

  /** The decimal form of a natural number, without leading zeros. */
  function NatToString(n: nat): (r: string)
    ensures |r| >= 1
    ensures forall i :: 0 <= i < |r| ==> IsDigit(r[i])
    ensures |r| > 1 ==> r[0] != '0'
    decreases n
  {
    if n < 10 then [DigitChar(n)] else NatToString(n / 10) + [DigitChar(n % 10)]
  }

  /** `formatNumber(num)`, `num.toString()`, which is also what a number
      becomes when it is assigned to `textContent` or joined to a string. */
  function FormatNumber(n: Num): (r: string)
    ensures n.NaN? ==> r == "NaN"
    ensures n.Int? && n.v >= 0 ==> r == NatToString(n.v)
    ensures n.Int? && n.v < 0 ==> r == "-" + NatToString(-n.v)
  {
    match n
    case NaN => "NaN"
    case Int(v) => if v < 0 then "-" + NatToString(-v) else NatToString(v)
  }

  /** Reading the digits back gives the number. */
  lemma {:induction false} DecimalValueOfNatToString(n: nat)
    ensures DecimalValue(NatToString(n)) == n
    decreases n
  {
    if n >= 10 {
      DecimalValueOfNatToString(n / 10);
      var s := NatToString(n);
      assert s[..|s| - 1] == NatToString(n / 10);
    }
  }

  /** The digit filter keeps a string of digits whole. */
  lemma DigitsOfDigitString(s: string)
    requires forall i :: 0 <= i < |s| ==> IsDigit(s[i])
    ensures Digits(s) == s
  {
    FilterKeepsAll(s, IsDigit);
  }

  /** The digit filter works piece by piece. */
  lemma DigitsOfConcat(a: string, b: string)
    ensures Digits(a + b) == Digits(a) + Digits(b)
  {
    FilterConcat(a, b, IsDigit);
  }

  /** `parseNumber` reads the decimal form of a natural number back. */
  lemma ParseNatToString(m: nat)
    ensures ParseNumber(NatToString(m)) == Int(m)
  {
    DigitsOfDigitString(NatToString(m));
    DecimalValueOfNatToString(m);
  }

  /** `parseNumber` skips a minus sign. */
  lemma ParseSkipsSign(m: nat)
    ensures ParseNumber("-" + NatToString(m)) == Int(m)
  {
    var s := NatToString(m);
    DigitsOfConcat("-", s);
    assert Digits("-") == [] by {
      assert !IsDigit("-"[0]);
    }
    DigitsOfDigitString(s);
    assert Digits("-" + s) == s;
    DecimalValueOfNatToString(m);
  }

  /** `parseNumber('NaN')` is NaN again. */
  lemma ParseNaNText(text: string)
    requires text == "NaN"
    ensures ParseNumber(text) == NaN
  {
    assert forall i :: 0 <= i < |text| ==> text[i] == 'N' || text[i] == 'a';
  }

  /** `parseNumber` inverts `formatNumber` on every number it can return;
      a negative number loses its sign and NaN stays NaN. */
  lemma FormatThenParse(n: Num)
    ensures n.Int? ==> ParseNumber(FormatNumber(n)) == Int(if n.v < 0 then -n.v else n.v)
    ensures n.NaN? ==> ParseNumber(FormatNumber(n)) == NaN
  {
    var text := FormatNumber(n);
    if n.NaN? {
      ParseNaNText(text);
    } else if n.v < 0 {
      var m: nat := -n.v;
      assert text == "-" + NatToString(m);
      ParseSkipsSign(m);
      assert ParseNumber(text) == Int(m);
    } else {
      var m: nat := n.v;
      assert text == NatToString(m);
      ParseNatToString(m);
      assert ParseNumber(text) == Int(m);
    }
  }

  /** Dropping a character that is not a digit does not change what
      `parseNumber` reads. */
  lemma ParseSkipsNonDigit(a: string, c: char, b: string)
    requires !IsDigit(c)
    ensures ParseNumber(a + [c] + b) == ParseNumber(a + b)
  {
    DigitsOfConcat(a + [c], b);
    DigitsOfConcat(a, [c]);
    DigitsOfConcat(a, b);
    assert Digits([c]) == [] by {
      assert !IsDigit([c][0]);
    }
    assert Digits(a + [c]) == Digits(a);
  }

  /** The decimal text of 150. */
  lemma DecimalText150()
    ensures NatToString(150) == "150"
  {
    assert NatToString(1) == "1";
    assert NatToString(15) == "15";
  }

  /** The decimal text of 1200. */
  lemma DecimalText1200()
    ensures NatToString(1200) == "1200"
  {
    assert NatToString(1) == "1";
    assert NatToString(12) == "12";
    assert NatToString(120) == "120";
  }

  /** `parseNumber('150+') === 150`. */
  lemma ParsePlusExample(text: string)
    requires text == "150+"
    ensures ParseNumber(text) == Int(150)
  {
    assert text == "150" + "+";
    ParseIgnoresPlus("150");
    DecimalText150();
    ParseNatToString(150);
  }

  /** `parseNumber('1,200') === 1200`. */
  lemma ParseCommaExample(text: string)
    requires text == "1,200"
    ensures ParseNumber(text) == Int(1200)
  {
    assert text == "1" + [','] + "200";
    assert "1" + "200" == "1200";
    ParseSkipsNonDigit("1", ',', "200");
    DecimalText1200();
    ParseNatToString(1200);
  }

  /** `originalText.includes('+')`. */
  predicate HasPlus(s: string) {
    '+' in s
  }

  /** `hasPlus ? n + '+' : n`, the text a stat shows for the number `n`:
      the number's own text, then a single "+" at the very end when asked. */
  function StatText(n: Num, hasPlus: bool): (r: string)
    ensures HasPlus(r) <==> hasPlus
    ensures FormatNumber(n) <= r
    ensures |r| == |FormatNumber(n)| + (if hasPlus then 1 else 0)
    ensures hasPlus ==> r[|r| - 1] == '+'
    ensures forall i :: 0 <= i < |r| && r[i] == '+' ==> i == |r| - 1
  {
    var digits := FormatNumber(n);
    assert !HasPlus(digits);
    digits + (if hasPlus then "+" else "")
  }

  /** A trailing "+" does not change what `parseNumber` reads. */
  lemma ParseIgnoresPlus(x: string)
    ensures ParseNumber(x + "+") == ParseNumber(x)
  {
    DigitsOfConcat(x, "+");
    assert Digits("+") == [] by {
      assert !IsDigit("+"[0]);
    }
    assert Digits(x + "+") == Digits(x);
  }

  /** The text a stat ends with is the decimal text of its target, with a
      "+" appended exactly when the original text held one; it reads back as
      the target: the display keeps the format. */
  lemma FinalTextKeepsFormat(originalText: string)
    requires ParseNumber(originalText).Int?
    ensures var shown := StatText(ParseNumber(originalText), HasPlus(originalText));
      ParseNumber(shown) == ParseNumber(originalText) && (HasPlus(shown) <==> HasPlus(originalText))
    ensures var t := ParseNumber(originalText).v;
      t >= 0 &&
      StatText(ParseNumber(originalText), HasPlus(originalText)) ==
        NatToString(t) + (if HasPlus(originalText) then "+" else "")
  {
    var n := ParseNumber(originalText);
    var digits := FormatNumber(n);
    FormatThenParse(n);
    if HasPlus(originalText) {
      ParseIgnoresPlus(digits);
    } else {
      assert digits + "" == digits;
    }
  }

  /** How one stat's count-up ends: it reaches its target through the
      `values` shown on the way, with `frames` the texts displayed tick by
      tick; or, with a NaN target, it shows the same frame forever. */
  datatype Animation = Completes(values: seq<int>, frames: seq<string>) | Spins(frame: string)

  /** `k` ticks stay below the target only while `k < 100`. */
  lemma TicksBeforeTarget(k: nat, t: nat)
    requires t > 0
    ensures k * t < 100 * t <==> k < 100
  {
    if k >= 100 {
      assert k * t == 100 * t + (k - 100) * t;
    } else {
      assert 100 * t == k * t + (100 - k) * t;
    }
  }

  /** `k * t` as `k` additions of `t`, so that a loop adding `t` once per
      tick reasons without multiplying. */
  function Times(k: nat, t: nat): nat {
    if k == 0 then 0 else Times(k - 1, t) + t
  }

  lemma {:induction false} TimesIsProduct(k: nat, t: nat)
    ensures Times(k, t) == k * t
  {
    if k > 0 {
      TimesIsProduct(k - 1, t);
    }
  }

  /** One tick below the target: fewer than 100 ticks have passed, the
      floor shown is below the target, and the next floor is no smaller. */
  lemma TickBelowTarget(k: nat, t: nat, scaled: nat)
    requires scaled == Times(k, t) && scaled < 100 * t
    ensures k < 100 && scaled / 100 < t && scaled / 100 <= (scaled + t) / 100
  {
    TimesIsProduct(k, t);
    TicksBeforeTarget(k, t);
  }

  /** The count-up stops after exactly 100 additions of a positive target. */
  lemma StopsAtHundred(k: nat, t: nat)
    requires t > 0 && k <= 100 && Times(k, t) >= 100 * t
    ensures k == 100
  {
    TimesIsProduct(k, t);
    TicksBeforeTarget(k, t);
  }

  /** The values shown so far: none negative, none above `bound`, all
      below the target `t`, and never decreasing. */
  ghost predicate Rising(values: seq<int>, bound: int, t: nat) {
    (forall i :: 0 <= i < |values| ==> 0 <= values[i] <= bound && values[i] < t) &&
    (forall i, j :: 0 <= i <= j < |values| ==> values[i] <= values[j])
  }

  /** Showing a value between the old and the new bound keeps the shown
      values rising. */
  lemma RisingExtend(values: seq<int>, bound: int, t: nat, next: int, bound2: int)
    requires Rising(values, bound, t)
    requires 0 <= bound <= next < t && next <= bound2
    ensures Rising(values + [next], bound2, t)
  {
  }

  /** Value `i` is the floor of the running value after `i + 1` ticks. */
  ghost predicate ShowsRunningValue(values: seq<int>, t: nat) {
    forall i :: 0 <= i < |values| ==> values[i] == Times(i + 1, t) / 100
  }

  /** Showing the floor after one more tick keeps the values running. */
  lemma RunningValueExtend(values: seq<int>, t: nat)
    requires ShowsRunningValue(values, t)
    ensures ShowsRunningValue(values + [Times(|values| + 1, t) / 100], t)
  {
  }

  /** The running value after `i + 1` ticks is `(i + 1) * t / 100`. */
  lemma RunningValueIsProduct(values: seq<int>, t: nat)
    requires ShowsRunningValue(values, t)
    ensures forall i :: 0 <= i < |values| ==> values[i] == (i + 1) * t / 100
  {
    forall i | 0 <= i < |values| ensures values[i] == (i + 1) * t / 100 {
      TimesIsProduct(i + 1, t);
    }
  }

  /** The ticks of one count-up to the number `target`, in exact
      arithmetic: `current` grows by `target / 100`; below the target a
      tick shows `Math.floor(current)`, otherwise the target, and the
      interval stops. The loop keeps `100 * current`, which is an integer
      because the target is. */
  method CountUp(target: nat, hasPlus: bool) returns (values: seq<int>, frames: seq<string>)
    ensures |frames| == |values| + 1
    ensures frames[|values|] == StatText(Int(target), hasPlus)
    ensures forall i :: 0 <= i < |values| ==>
      0 <= values[i] < target && frames[i] == StatText(Int(values[i]), hasPlus)
    ensures forall i :: 0 <= i < |values| ==> values[i] == (i + 1) * target / 100
    ensures forall i, j :: 0 <= i <= j < |values| ==> values[i] <= values[j]
    ensures |values| == if target == 0 then 0 else 99
  {
    var scaled: nat := target;
    var k: nat := 1;
    values := [];
    frames := [];
    while scaled < 100 * target
      invariant 1 <= k <= 100 && (target == 0 ==> k == 1)
      invariant scaled == Times(k, target)
      invariant |values| == |frames| == k - 1
      invariant Rising(values, scaled / 100, target)
      invariant forall i :: 0 <= i < |values| ==> frames[i] == StatText(Int(values[i]), hasPlus)
      invariant ShowsRunningValue(values, target)
      decreases 100 * target - scaled
    {
      TickBelowTarget(k, target, scaled);
      var shown := scaled / 100;
      RisingExtend(values, shown, target, shown, (scaled + target) / 100);
      RunningValueExtend(values, target);
      values := values + [shown];
      frames := frames + [StatText(Int(shown), hasPlus)];
      scaled := scaled + target;
      k := k + 1;
    }
    if target > 0 {
      StopsAtHundred(k, target);
    }
    RunningValueIsProduct(values, target);
    frames := frames + [StatText(Int(target), hasPlus)];
  }

  /** The interval body of `animateStats` for the stat whose text is
      `originalText`. With a NaN target every comparison is false and each
      tick shows `Math.floor(NaN)`, so the count-up never ends. */
  method AnimateStat(originalText: string) returns (a: Animation)
    ensures a.Spins? <==> ParseNumber(originalText).NaN?
    ensures a.Spins? ==> a.frame == StatText(NaN, HasPlus(originalText))
    ensures a.Completes? ==> |a.frames| == |a.values| + 1
    ensures a.Completes? ==>
      a.frames[|a.values|] == StatText(ParseNumber(originalText), HasPlus(originalText))
    ensures a.Completes? ==> forall i :: 0 <= i < |a.values| ==>
      0 <= a.values[i] < ParseNumber(originalText).v &&
      a.frames[i] == StatText(Int(a.values[i]), HasPlus(originalText))
    ensures a.Completes? ==> forall i :: 0 <= i < |a.values| ==>
      a.values[i] == (i + 1) * ParseNumber(originalText).v / 100
    ensures a.Completes? ==> forall i, j :: 0 <= i <= j < |a.values| ==> a.values[i] <= a.values[j]
    ensures a.Completes? ==> |a.values| == if ParseNumber(originalText).v == 0 then 0 else 99
  {
    var hasPlus := HasPlus(originalText);
    var target := ParseNumber(originalText);
    if target.NaN? {
      return Spins(StatText(NaN, hasPlus));
    }
    var values, frames := CountUp(target.v, hasPlus);
    a := Completes(values, frames);
  }

  /** The outcome of delivering observer entries: whether `hasAnimated` is
      set afterwards, and how many times `animateStats` was called. */
  datatype Outcome = Outcome(latched: bool, starts: nat)

  /** The observer callback over one batch of entries, each given by its
      `isIntersecting`: the first intersecting entry while the latch is
      open closes it and starts the animation. */
  function Deliver(latched: bool, entries: seq<bool>): (r: Outcome)
    ensures r.latched <==> latched || true in entries
    ensures r.starts == if !latched && true in entries then 1 else 0
    decreases |entries|
  {
    if entries == [] then Outcome(latched, 0)
    else
      assert entries == [entries[0]] + entries[1..];
      if entries[0] && !latched then
        var rest := Deliver(true, entries[1..]);
        Outcome(rest.latched, rest.starts + 1)
      else
        Deliver(latched, entries[1..])
  }

  /** The callback over several batches, in order. */
  function DeliverAll(latched: bool, batches: seq<seq<bool>>): (r: Outcome)
    decreases |batches|
  {
    if batches == [] then Outcome(latched, 0)
    else
      var first := Deliver(latched, batches[0]);
      var rest := DeliverAll(first.latched, batches[1..]);
      Outcome(rest.latched, first.starts + rest.starts)
  }

  /** However many batches and entries arrive, one observer starts the
      animation at most once, and it does so exactly when some entry
      intersects. */
  lemma {:induction false} AnimatesAtMostOnce(latched: bool, batches: seq<seq<bool>>)
    ensures latched ==> DeliverAll(latched, batches).starts == 0
    ensures DeliverAll(latched, batches).starts <= 1
    ensures !latched ==> (DeliverAll(latched, batches).starts == 1 <==>
      exists b :: 0 <= b < |batches| && true in batches[b])
    decreases |batches|
  {
    if batches != [] {
      var first := Deliver(latched, batches[0]);
      AnimatesAtMostOnce(first.latched, batches[1..]);
      if !latched {
        if true in batches[0] {
          assert DeliverAll(latched, batches).starts == 1;
        } else {
          assert forall b :: 1 <= b < |batches| ==> batches[b] == batches[1..][b - 1];
          assert (exists b :: 0 <= b < |batches| && true in batches[b]) ==
            (exists b :: 0 <= b < |batches[1..]| && true in batches[1..][b]);
        }
      }
    }
  }

  /** One `initCounterAnimation` call: its `hasAnimated` flag and the
      number of `animateStats` calls its observer made. */
  class StatsObserver {
    var hasAnimated: bool
    var runs: nat

    /** The animation ran once exactly when the latch is closed. */
    ghost predicate Valid()
      reads this
    {
      runs == if hasAnimated then 1 else 0
    }

    constructor ()
      ensures Valid() && !hasAnimated && runs == 0
    {
      hasAnimated := false;
      runs := 0;
    }

    /** The observer callback for one batch, entry by entry. */
    method OnEntries(entries: seq<bool>)
      requires Valid()
      modifies this
      ensures Valid()
      ensures var o := Deliver(old(hasAnimated), entries);
        hasAnimated == o.latched && runs == old(runs) + o.starts
    {
      var i := 0;
      while i < |entries|
        invariant 0 <= i <= |entries|
        invariant Valid()
        invariant Deliver(hasAnimated, entries[i..]).latched == Deliver(old(hasAnimated), entries).latched
        invariant runs + Deliver(hasAnimated, entries[i..]).starts ==
          old(runs) + Deliver(old(hasAnimated), entries).starts
      {
        assert entries[i..] == [entries[i]] + entries[i + 1..];
        if entries[i] && !hasAnimated {
          hasAnimated := true;
          runs := runs + 1;
        }
        i := i + 1;
      }
    }
  }
}

=== FILE: featured_slider.dfy ===
/**
  The featured-project slider of js/data-loader.js: the module variable
  `currentSlide`, the `.slider-item` slides and the page-wide `.slider-dot`
  buttons, driven by `changeSlide` (the five-second interval calls
  `changeSlide(1)`) and `goToSlide` (a dot click).
 */
module FeaturedSlider {
  import opened JsValues
  import opened Rotation
  import ListShaping

  /** What the handlers read and write: `currentSlide`, the active flags
      of the slides, and the active flags of every `.slider-dot` on the
      page, in document order. */
  datatype View = View(current: int, slides: seq<bool>, dots: seq<bool>)

  /** The slider shows item `i`: `currentSlide` is `i`, slide `i` is the
      only active slide, and among the slider's own dots (the first
      `|slides|` of the page) dot `i` is the only active one. */
  ghost predicate Shows(s: View, i: int) {
    s.current == i && |s.slides| <= |s.dots| &&
    ExactlyActive(s.slides, i) && ExactlyActive(s.dots[..|s.slides|], i)
  }

  /** The body `changeSlide` and `goToSlide` share after their guard:
      deactivate slide and dot `currentSlide`, set `currentSlide = next`,
      activate slide and dot `next`. Each of the four element accesses
      throws a TypeError when the list has no element there, leaving the
      effects made before it. */
  function Move(s: View, next: int): (r: Step<View>)
    ensures r.Ok? <==>
      0 <= s.current < |s.slides| && s.current < |s.dots| && 0 <= next < |s.slides| && next < |s.dots|
    ensures !(0 <= s.current < |s.slides|) ==> r == Threw(s)
    ensures 0 <= s.current < |s.slides| && s.current < |s.dots| ==> r.state.current == next
    ensures 0 <= s.current < |s.slides| && s.current >= |s.dots| ==>
      r == Threw(s.(slides := s.slides[s.current := false]))
    ensures |r.state.slides| == |s.slides| && |r.state.dots| == |s.dots|
    ensures r.Ok? ==> r.state.slides[next] && r.state.dots[next]
    ensures r.Ok? && next != s.current ==> !r.state.slides[s.current] && !r.state.dots[s.current]
    ensures forall j :: 0 <= j < |s.slides| && j != s.current && j != next ==>
      r.state.slides[j] == s.slides[j]
    ensures forall j :: 0 <= j < |s.dots| && j != s.current && j != next ==>
      r.state.dots[j] == s.dots[j]
  {
    if !(0 <= s.current < |s.slides|) then Threw(s)
    else
      var slides := s.slides[s.current := false];
      if !(s.current < |s.dots|) then Threw(s.(slides := slides))
      else
        var dots := s.dots[s.current := false];
        if !(0 <= next < |slides|) then Threw(View(next, slides, dots))
        else
          var slides' := slides[next := true];
          if !(next < |dots|) then Threw(View(next, slides', dots))
          else Ok(View(next, slides', dots[next := true]))
  }

  /** `changeSlide(direction)`: a no-op without slides, otherwise a move to
      `(currentSlide + direction + n) % n`. From a slider that shows item
      `i`, a step of one either way shows the neighbouring item, circularly,
      and leaves every dot beyond the slider's own untouched. Once
      `currentSlide` is out of range, every call throws and changes nothing. */
  function AfterChangeSlide(s: View, direction: int): (r: Step<View>)
    ensures |r.state.slides| == |s.slides| && |r.state.dots| == |s.dots|
    ensures |s.slides| == 0 ==> r == Ok(s)
    ensures forall i :: Shows(s, i) && (direction == 1 || direction == -1) ==>
      r.Ok? && Shows(r.state, Wrap(i, direction, |s.slides|)) &&
      r.state.dots[|s.slides|..] == s.dots[|s.slides|..]
    ensures |s.slides| > 0 && !(0 <= s.current < |s.slides|) ==> r == Threw(s)
  {
    if |s.slides| == 0 then Ok(s)
    else
      var r := Move(s, Wrap(s.current, direction, |s.slides|));
      MoveKeepsOneActive(s, Wrap(s.current, direction, |s.slides|));
      r
  }

  /** `goToSlide(index)`: a no-op without slides, otherwise a move to
      `index`, which is not checked. In range it shows that item; out of
      range it throws after deactivating the shown slide and setting
      `currentSlide` to the bad index, so no slide is shown any more. */
  function AfterGoToSlide(s: View, index: int): (r: Step<View>)
    ensures |r.state.slides| == |s.slides| && |r.state.dots| == |s.dots|
    ensures |s.slides| == 0 ==> r == Ok(s)
    ensures forall i :: Shows(s, i) && 0 <= index < |s.slides| ==>
      r.Ok? && Shows(r.state, index) && r.state.dots[|s.slides|..] == s.dots[|s.slides|..]
    ensures forall i :: Shows(s, i) && !(0 <= index < |s.slides|) ==>
      r.Threw? && r.state.current == index &&
      forall j :: 0 <= j < |r.state.slides| ==> !r.state.slides[j]
    ensures |s.slides| > 0 && !(0 <= s.current < |s.slides|) ==> r == Threw(s)
  {
    if |s.slides| == 0 then Ok(s)
    else
      MoveKeepsOneActive(s, index);
      Move(s, index)
  }

  /** A move between items in range carries "exactly one active" from the
      old item to the new one and changes no dot beyond the slider's own. */
  lemma MoveKeepsOneActive(s: View, next: int)
    ensures forall i :: Shows(s, i) && 0 <= next < |s.slides| ==>
      Move(s, next).Ok? && Shows(Move(s, next).state, next) &&
      Move(s, next).state.dots[|s.slides|..] == s.dots[|s.slides|..]
  {
    var n := |s.slides|;
    if exists i :: Shows(s, i) && 0 <= next < n {
      var r := Move(s, next);
      var t := r.state;
      assert t.dots[..n] == t.dots[..n];
      forall j | 0 <= j < n ensures t.dots[..n][j] <==> j == next {
        assert s.dots[..n][j] == s.dots[j];
      }
      assert t.dots[n..] == s.dots[n..];
    }
  }

  /** `k` ticks of the five-second interval, i.e. `k` calls of
      `changeSlide(1)`. A call that throws ends only that tick: the next
      tick starts from the page as the throw left it. The result tells
      whether the last call threw. */
  function AfterTicks(s: View, k: nat): (r: Step<View>)
    ensures |r.state.slides| == |s.slides| && |r.state.dots| == |s.dots|
    ensures |s.slides| == 0 ==> r == Ok(s)
  {
    if k == 0 then Ok(s)
    else AfterChangeSlide(AfterTicks(s, k - 1).state, 1)
  }

  /** The interval visits the items in order and, after as many ticks as
      there are items, shows the item it started from. */
  lemma TicksAdvance(s: View, i: int, k: nat)
    requires Shows(s, i)
    ensures AfterTicks(s, k).Ok?
    ensures |AfterTicks(s, k).state.slides| == |s.slides|
    ensures |AfterTicks(s, k).state.dots| == |s.dots|
    ensures Shows(AfterTicks(s, k).state, Advance(i, k, |s.slides|))
    ensures AfterTicks(s, k).state.dots[|s.slides|..] == s.dots[|s.slides|..]
    ensures k == |s.slides| ==> Shows(AfterTicks(s, k).state, i)
  {
    TicksKeepShowing(s, i, k);
    if k == |s.slides| {
      FullCycleReturns(i, |s.slides|);
    }
  }

  lemma {:induction false} TicksKeepShowing(s: View, i: int, k: nat)
    requires Shows(s, i)
    ensures AfterTicks(s, k).Ok?
    ensures Shows(AfterTicks(s, k).state, Advance(i, k, |s.slides|))
    ensures AfterTicks(s, k).state.dots[|s.slides|..] == s.dots[|s.slides|..]
  {
    if k > 0 {
      var n := |s.slides|;
      TicksKeepShowing(s, i, k - 1);
      var prev := AfterTicks(s, k - 1).state;
      var j := Advance(i, k - 1, n);
      TickMovesOn(prev, j);
      assert AfterTicks(s, k) == AfterChangeSlide(prev, 1);
    }
  }

  /** One tick from a slider that shows item `j` shows the next item. */
  lemma TickMovesOn(s: View, j: int)
    requires Shows(s, j)
    ensures var r := AfterChangeSlide(s, 1);
      r.Ok? && Shows(r.state, Wrap(j, 1, |s.slides|)) &&
      |r.state.slides| == |s.slides| && |r.state.dots| == |s.dots| &&
      r.state.dots[|s.slides|..] == s.dots[|s.slides|..]
  {
  }

  /** Once `currentSlide` is out of range, every later tick throws and
      changes nothing: the slider stays stuck. The page's own dots and
      buttons only pass indices in range; such a state needs a direct call
      of `goToSlide` with a bad index. */
  lemma {:induction false} OutOfRangeSticks(s: View, k: nat)
    requires |s.slides| > 0 && !(0 <= s.current < |s.slides|)
    ensures AfterTicks(s, k) == if k == 0 then Ok(s) else Threw(s)
  {
    if k > 1 {
      OutOfRangeSticks(s, k - 1);
    }
  }

  /** The slider as a page object: `currentSlide` and the slides belong to
      it; the dot list is the page's, shared with the certificate slider. */
  class Slider {
    var current: int
    var slides: seq<bool>
    const dots: DotList

    function Snapshot(): View
      reads this, dots
    {
      View(current, slides, dots.active)
    }

    /** `renderFeaturedProjectsSlider` with the page's project list: one
        slide and one dot per selected project, the first of each active.
        The slider renders before the certificate slider, so its dots come
        first in the page-wide list. */
    constructor (projects: seq<ListShaping.Project>, dots: DotList)
      modifies dots
      ensures this.dots == dots
      ensures current == 0
      ensures slides == FirstActive(|ListShaping.SelectFeatured(projects)|)
      ensures dots.active == FirstActive(|ListShaping.SelectFeatured(projects)|) + old(dots.active)
    {
      var n := |ListShaping.SelectFeatured(projects)|;
      current := 0;
      slides := FirstActive(n);
      this.dots := dots;
      new;
      dots.active := FirstActive(n) + dots.active;
    }

    /** The shared body of the two handlers, step by step. */
    method MoveTo(next: int) returns (threw: bool)
      modifies this, dots
      ensures var r := Move(old(Snapshot()), next); threw == r.Threw? && Snapshot() == r.state
    {
      if !(0 <= current < |slides|) {
        return true;
      }
      slides := slides[current := false];
      if !(current < |dots.active|) {
        return true;
      }
      dots.active := dots.active[current := false];
      current := next;
      if !(0 <= current < |slides|) {
        return true;
      }
      slides := slides[current := true];
      if !(current < |dots.active|) {
        return true;
      }
      dots.active := dots.active[current := true];
      threw := false;
    }

    /** `changeSlide(direction)`; `threw` says whether it ended in a
        TypeError. */
    method ChangeSlide(direction: int) returns (threw: bool)
      modifies this, dots
      ensures var r := AfterChangeSlide(old(Snapshot()), direction);
        threw == r.Threw? && Snapshot() == r.state
    {
      var n := |slides|;
      if n == 0 {
        return false;
      }
      threw := MoveTo(Wrap(current, direction, n));
    }

    /** `goToSlide(index)`, what a dot click runs. */
    method GoToSlide(index: int) returns (threw: bool)
      modifies this, dots
      ensures var r := AfterGoToSlide(old(Snapshot()), index);
        threw == r.Threw? && Snapshot() == r.state
    {
      if |slides| == 0 {
        return false;
      }
      threw := MoveTo(index);
    }

    /** One tick of the five-second auto-slide interval. */
    method Tick() returns (threw: bool)
      modifies this, dots
      ensures var r := AfterChangeSlide(old(Snapshot()), 1);
        threw == r.Threw? && Snapshot() == r.state
    {
      threw := ChangeSlide(1);
    }
  }
}

=== FILE: fetch_cache.dfy ===
/**
  `fetchData` and its `dataCache` in js/data-loader.js: a request first
  consults the cache, and only a truthy entry counts as a hit; otherwise
  the file is fetched, a parsed value is stored, and any failure yields
  `null` and stores nothing.
 */
module FetchCache {

  /** A parsed JSON value. */
  datatype Json =
    | JNull
    | JBool(b: bool)
    | JNumber(n: real)
    | JString(s: string)
    | JArray(items: seq<Json>)
    | JObject(fields: map<string, Json>)

  /** JavaScript truthiness of a parsed JSON value (JSON has no NaN). */
  predicate Truthy(j: Json) {
    match j
    case JNull => false
    case JBool(b) => b
    case JNumber(n) => n != 0.0
    case JString(s) => s != ""
    case _ => true
  }

  /** What the network gives for one fetch: a parsed body, or a failure of
      any kind (a rejected `fetch`, a status that is not ok, a body that is
      not JSON), all of which end in the `catch`. */
  datatype Response = Loaded(value: Json) | Failed

  /** What a call returns, the cache after it, and whether it went to the
      network at all. */
  datatype Lookup = Lookup(result: Json, cache: map<string, Json>, fetched: bool)

  /** `dataCache[path]` is truthy; a missing key reads as `undefined`. */
  predicate IsHit(cache: map<string, Json>, path: string) {
    path in cache && Truthy(cache[path])
  }

  /** `fetchData(path)`, with `response` standing for what the network
      would give if asked. */
  function FetchData(cache: map<string, Json>, path: string, response: Response): (r: Lookup)
    ensures IsHit(cache, path) ==> r.result == cache[path] && r.cache == cache && !r.fetched
    ensures !IsHit(cache, path) ==> r.fetched
    ensures !IsHit(cache, path) && response.Loaded? ==>
      r.result == response.value && r.cache == cache[path := response.value]
    ensures !IsHit(cache, path) && response.Failed? ==> r.result == JNull && r.cache == cache
  {
    if IsHit(cache, path) then Lookup(cache[path], cache, false)
    else
      match response
      case Loaded(v) => Lookup(v, cache[path := v], true)
      case Failed => Lookup(JNull, cache, true)
  }

  /** A call changes at most the entry for its own path, and never a hit. */
  lemma OnlyOwnEntryChanges(cache: map<string, Json>, path: string, response: Response, other: string)
    requires other != path || IsHit(cache, path)
    ensures other in FetchData(cache, path, response).cache <==> other in cache
    ensures other in cache ==> FetchData(cache, path, response).cache[other] == cache[other]
  {
  }

  /** After a load of a truthy value, asking again returns that value
      without going to the network, whatever the network would say. */
  lemma RepeatRequestHits(cache: map<string, Json>, path: string, v: Json, later: Response)
    requires !IsHit(cache, path) && Truthy(v)
    ensures var first := FetchData(cache, path, Loaded(v));
      var second := FetchData(first.cache, path, later);
      second.result == v && !second.fetched && second.cache == first.cache
  {
  }

  /** A failure is not remembered: the next request goes to the network
      again and can succeed. */
  lemma FailureIsNotCached(cache: map<string, Json>, path: string, later: Response)
    requires !IsHit(cache, path)
    ensures var first := FetchData(cache, path, Failed);
      first.result == JNull && first.cache == cache &&
      FetchData(first.cache, path, later).fetched
  {
  }

  /** A stored falsy value (`0`, `""`, `false`, `null`) is no hit: it is
      fetched again, and a successful load overwrites it. */
  lemma FalsyEntryIsRefetched(cache: map<string, Json>, path: string, v: Json)
    requires path in cache && !Truthy(cache[path])
    ensures FetchData(cache, path, Loaded(v)).fetched
    ensures FetchData(cache, path, Loaded(v)).cache[path] == v
  {
  }

  /** One call of `fetchData` with the network's answer. */
  datatype Request = Request(path: string, response: Response)

  /** The number of calls among `reqs`, made in order from `cache`, that
      fetched `path` successfully and stored it. */
  function Stores(cache: map<string, Json>, reqs: seq<Request>, path: string): (r: nat)
    ensures r <= |reqs|
    decreases |reqs|
  {
    if reqs == [] then 0
    else
      var l := FetchData(cache, reqs[0].path, reqs[0].response);
      (if reqs[0].path == path && l.fetched && reqs[0].response.Loaded? then 1 else 0) +
      Stores(l.cache, reqs[1..], path)
  }

  /** When every successful load is truthy, each path is stored at most
      once over any run of requests, and never once it is a hit. */
  lemma {:induction false} StoredAtMostOnce(cache: map<string, Json>, reqs: seq<Request>, path: string)
    requires forall i :: 0 <= i < |reqs| && reqs[i].response.Loaded? ==> Truthy(reqs[i].response.value)
    ensures IsHit(cache, path) ==> Stores(cache, reqs, path) == 0
    ensures Stores(cache, reqs, path) <= 1
    decreases |reqs|
  {
    if reqs != [] {
      var l := FetchData(cache, reqs[0].path, reqs[0].response);
      StoredAtMostOnce(l.cache, reqs[1..], path);
      if IsHit(cache, path) {
        OnlyOwnEntryChanges(cache, reqs[0].path, reqs[0].response, path);
      } else if reqs[0].path == path && reqs[0].response.Loaded? {
        assert IsHit(l.cache, path);
      }
    }
  }

  /** The page-wide cache object. */
  class DataCache {
    var entries: map<string, Json>

    constructor ()
      ensures entries == map[]
    {
      entries := map[];
    }

    /** `fetchData(path)`; `response` is what the network gives if asked,
        and `fetched` says whether it was asked. */
    method Fetch(path: string, response: Response) returns (data: Json, fetched: bool)
      modifies this
      ensures var l := FetchData(old(entries), path, response);
        data == l.result && fetched == l.fetched && entries == l.cache
    {
      if path in entries && Truthy(entries[path]) {
        return entries[path], false;
      }
      match response
      case Loaded(v) =>
        entries := entries[path := v];
        return v, true;
      case Failed =>
        return JNull, true;
    }
  }
}

=== FILE: js_values.dfy ===
/**
  JavaScript runtime values that the modelled code can observe: optional
  values, numbers that may be NaN, JavaScript's remainder operator, and the
  outcome of an event handler that may throw part-way through.
 */
module JsValues {

  datatype Option<+T> = None | Some(value: T) {
    function GetOr(default: T): T {
      match this
      case Some(v) => v
      case None => default
    }
  }

  /** A JavaScript number as it occurs in the modelled index and counter
      variables: an integer, or NaN (what `x % 0` and `parseInt("")` give). */
  datatype Num = Int(v: int) | NaN

  /** JavaScript's `%` on integers: it truncates toward zero, so the
      remainder takes the sign of the dividend (Dafny's `%` is Euclidean).
      Only positive divisors occur in the modelled code; `x % 0` is `Rem`'s
      NaN case. */
  function JsRem(a: int, n: int): (r: int)
    requires n > 0
    ensures a >= 0 ==> r == a % n && 0 <= r < n
    ensures a < 0 ==> -n < r <= 0
  {
    if a >= 0 then a % n else -((-a) % n)
  }

  /** `a + d` where `a` may be NaN (NaN is absorbing). */
  function Plus(a: Num, d: int): (r: Num)
    ensures r.NaN? <==> a.NaN?
    ensures r.Int? ==> r.v - d == a.v
  {
    match a
    case NaN => NaN
    case Int(x) => Int(x + d)
  }

  /** `a % n` for a number that may be NaN and a count `n`: NaN when `a` is
      NaN or `n` is 0. */
  function Rem(a: Num, n: nat): (r: Num)
    ensures r.NaN? <==> a.NaN? || n == 0
    ensures r.Int? ==> n != 0 && r.v == JsRem(a.v, n)
  {
    if a.NaN? || n == 0 then NaN else Int(JsRem(a.v, n))
  }

  /** The ASCII digits, the regular-expression class `[0-9]`. */
  predicate IsDigit(c: char) {
    '0' <= c <= '9'
  }

  /** How an event handler ended: it ran to completion, or it threw a
      TypeError (a property read on `undefined`); `state` is the state the
      handler left behind, including the effects made before the throw. */
  datatype Step<S> = Ok(state: S) | Threw(state: S)
}

=== FILE: list_shaping.dfy ===
/**
  The list and string expressions that the renderers of js/data-loader.js
  build their markup from: the portfolio category list and filter, the
  featured-project selection, the doubled testimonial list, the footer and
  dropdown service lists, the `tel:` number, the filter-button label and
  the hero title lines. The markup itself is not modelled.
 */
module ListShaping {
  import opened JsValues
  import opened Sequences
  import opened Rotation

  /** A portfolio project as the renderers use it; `featured` is the
      truthiness of `project.featured`. */
  datatype Project = Project(title: string, category: string, featured: bool)

  datatype Service = Service(title: string)

  /* ---------------- Portfolio categories (data-loader.js:293) ---------------- */

  ghost predicate NoDuplicates<T>(xs: seq<T>) {
    forall i, j :: 0 <= i < j < |xs| ==> xs[i] != xs[j]
  }

  /** Every element of `r` occurs in `xs` before any occurrence of each
      later element of `r`: `r` lists elements in order of first appearance. */
  ghost predicate InFirstAppearanceOrder<T>(r: seq<T>, xs: seq<T>) {
    forall i, j, q :: 0 <= i < j < |r| && 0 <= q < |xs| && xs[q] == r[j] ==> r[i] in xs[..q]
  }

  /** The elements of `new Set(xs)` in iteration order: each distinct
      element once, in order of insertion. */
  function Distinct<T(==)>(xs: seq<T>): (r: seq<T>)
    ensures forall i :: 0 <= i < |r| ==> r[i] in xs
    ensures forall i :: 0 <= i < |xs| ==> xs[i] in r
    ensures NoDuplicates(r)
  {
    if xs == [] then []
    else
      var init := Distinct(xs[..|xs| - 1]);
      if xs[|xs| - 1] in init then init else init + [xs[|xs| - 1]]
  }

  /** `new Set(xs)` iterates in order of first appearance. */
  lemma {:induction false} DistinctInFirstAppearanceOrder<T>(xs: seq<T>)
    ensures InFirstAppearanceOrder(Distinct(xs), xs)
  {
    if xs != [] {
      var n := |xs|;
      var init := xs[..n - 1];
      var r0 := Distinct(init);
      var r := Distinct(xs);
      DistinctInFirstAppearanceOrder(init);
      forall i, j, q | 0 <= i < j < |r| && 0 <= q < n && xs[q] == r[j]
        ensures r[i] in xs[..q]
      {
        if j < |r0| {
          // r[i] and r[j] are both in r0; find an occurrence of r[j] in init
          var q' := q;
          if q == n - 1 {
            assert r[j] in init;
            q' :| 0 <= q' < n - 1 && init[q'] == r[j];
          }
          assert init[q'] == r[j];
          assert r[i] in init[..q'];
          assert init[..q'] == xs[..q'];
          assert xs[..q'] <= xs[..q];
        } else {
          // r[j] is the last element, which does not occur in init
          assert r[j] == xs[n - 1] && r[j] !in init;
          assert q == n - 1;
          assert r[i] in r0;
          assert xs[..q] == init;
        }
      }
    }
  }

  /** `['all', ...new Set(projects.map(p => p.category))]`. */
  function Categories(projects: seq<Project>): (r: seq<string>)
    ensures |r| >= 1 && r[0] == "all"
  {
    ["all"] + Distinct(seq(|projects|, i requires 0 <= i < |projects| => projects[i].category))
  }

  /** The category list is `'all'` followed by each project category once,
      in order of first appearance, and nothing else. */
  lemma CategoriesListEachCategoryOnce(projects: seq<Project>)
    ensures Categories(projects)[0] == "all"
    ensures forall i :: 0 <= i < |projects| ==> projects[i].category in Categories(projects)[1..]
    ensures forall k :: 1 <= k < |Categories(projects)| ==>
      exists i :: 0 <= i < |projects| && projects[i].category == Categories(projects)[k]
    ensures NoDuplicates(Categories(projects)[1..])
    ensures InFirstAppearanceOrder(Categories(projects)[1..],
      seq(|projects|, i requires 0 <= i < |projects| => projects[i].category))
  {
    var cats := seq(|projects|, i requires 0 <= i < |projects| => projects[i].category);
    var r := Categories(projects);
    assert r[1..] == Distinct(cats);
    DistinctInFirstAppearanceOrder(cats);
    forall i | 0 <= i < |projects| ensures projects[i].category in r[1..] {
      assert cats[i] == projects[i].category;
    }
    forall k | 1 <= k < |r|
      ensures exists i :: 0 <= i < |projects| && projects[i].category == r[k]
    {
      assert r[k] == r[1..][k - 1];
      assert r[k] in cats;
      var i :| 0 <= i < |cats| && cats[i] == r[k];
      assert projects[i].category == r[k];
    }
  }

  /** A project whose category is literally "all" makes the list show
      "all" twice: the leading entry is not part of the `Set`. */
  lemma CategoryNamedAllIsListedTwice(projects: seq<Project>, i: int)
    requires 0 <= i < |projects| && projects[i].category == "all"
    ensures exists k :: 1 <= k < |Categories(projects)| && Categories(projects)[k] == "all"
    ensures !ExactlyActive(ActiveButtons(Categories(projects), "all"), 0)
  {
    var k := SecondAll(projects, i);
    assert ActiveButtons(Categories(projects), "all")[k];
  }

  /** Where the second "all" sits. */
  lemma SecondAll(projects: seq<Project>, i: int) returns (k: nat)
    requires 0 <= i < |projects| && projects[i].category == "all"
    ensures 1 <= k < |Categories(projects)| && Categories(projects)[k] == "all"
  {
    CategoriesListEachCategoryOnce(projects);
    var r := Categories(projects);
    assert projects[i].category in r[1..];
    var j :| 0 <= j < |r[1..]| && r[1..][j] == projects[i].category;
    k := j + 1;
    assert r[k] == r[1..][j];
  }

  /* ---------------- Filter buttons and filtering (data-loader.js:300-301, 337-344) ---------------- */

  /** The `active` flags of the filter buttons, one per category, once
      `category` is the chosen filter: `btn.dataset.filter === category`.
      The freshly rendered row is the one for `'all'`. */
  function ActiveButtons(categories: seq<string>, category: string): (r: seq<bool>)
    ensures |r| == |categories|
    ensures forall k :: 0 <= k < |r| ==> (r[k] <==> categories[k] == category)
    ensures category !in categories ==> forall k :: 0 <= k < |r| ==> !r[k]
  {
    seq(|categories|, k requires 0 <= k < |categories| => categories[k] == category)
  }

  /** When no project's category is literally "all", choosing any listed
      category leaves exactly its own button active. */
  lemma ChosenFilterIsTheOnlyActive(projects: seq<Project>, k: int)
    requires 0 <= k < |Categories(projects)|
    requires forall i :: 0 <= i < |projects| ==> projects[i].category != "all"
    ensures ExactlyActive(ActiveButtons(Categories(projects), Categories(projects)[k]), k)
  {
    CategoriesListEachCategoryOnce(projects);
    var r := Categories(projects);
    forall j | 0 <= j < |r| ensures r[j] == r[k] <==> j == k {
      if j != k && r[j] == r[k] {
        assert false;
      }
    }
  }

  /** `c.toUpperCase()` on one character; only the ASCII letters are
      mapped. */
  function UpperAscii(c: char): (u: char)
    ensures 'a' <= c <= 'z' ==> 'A' <= u <= 'Z' && u as int == c as int - 32
    ensures !('a' <= c <= 'z') ==> u == c
  {
    if 'a' <= c <= 'z' then (c as int - 32) as char else c
  }

  /** `cat.charAt(0).toUpperCase() + cat.slice(1)`: the filter-button label. */
  function Capitalize(cat: string): (r: string)
    ensures |r| == |cat|
    ensures |cat| > 0 ==> r[0] == UpperAscii(cat[0]) && r[1..] == cat[1..]
    ensures forall i :: 0 < i < |r| ==> r[i] == cat[i]
  {
    if cat == "" then "" else [UpperAscii(cat[0])] + cat[1..]
  }

  /** `category === 'all' ? projects : projects.filter(p => p.category === category)`. */
  function FilterPortfolio(projects: seq<Project>, category: string): (r: seq<Project>)
    ensures category == "all" ==> r == projects
    ensures category != "all" ==>
      (forall i :: 0 <= i < |r| ==> r[i].category == category && r[i] in projects) &&
      (forall i :: 0 <= i < |projects| && projects[i].category == category ==> projects[i] in r)
  {
    if category == "all" then projects
    else Filter(projects, (p: Project) => p.category == category)
  }

  /** The filter works project by project: a single project stays exactly
      when the filter is `all` or its category, and the result for a
      concatenation is the concatenation of the results. So each project
      appears in the result as often as in the list, or not at all. */
  lemma FilterPortfolioDistributes(a: seq<Project>, b: seq<Project>, p: Project, category: string)
    ensures FilterPortfolio(a + b, category) ==
      FilterPortfolio(a, category) + FilterPortfolio(b, category)
    ensures FilterPortfolio([p], category) ==
      if category == "all" || p.category == category then [p] else []
  {
    if category != "all" {
      FilterConcat(a, b, (q: Project) => q.category == category);
    }
  }

  /** Every filtered list is an order-preserving selection of the projects. */
  lemma FilterPortfolioKeepsOrder(projects: seq<Project>, category: string)
    ensures IsSubsequence(FilterPortfolio(projects, category), projects)
  {
    if category == "all" {
      SubsequenceReflexive(projects);
    } else {
      FilterIsSubsequence(projects, (p: Project) => p.category == category);
    }
  }

  lemma {:induction false} SubsequenceReflexive<T>(xs: seq<T>)
    ensures IsSubsequence(xs, xs)
  {
    if xs != [] {
      SubsequenceReflexive(xs[1..]);
    }
  }

  /* ---------------- Featured-project selection (data-loader.js:367-370) ---------------- */

  function FeaturedOnly(projects: seq<Project>): (r: seq<Project>)
    ensures forall i :: 0 <= i < |r| ==> r[i].featured
  {
    Filter(projects, (p: Project) => p.featured)
  }

  /** `projects.filter(p => p.featured).slice(0, 8)`, or `projects.slice(0, 8)`
      when that is empty. */
  function SelectFeatured(projects: seq<Project>): (r: seq<Project>)
    ensures |r| <= 8
    ensures (exists i :: 0 <= i < |projects| && projects[i].featured) ==>
      r == Take(FeaturedOnly(projects), 8) && |r| > 0 &&
      forall k :: 0 <= k < |r| ==> r[k].featured
    ensures (forall i :: 0 <= i < |projects| ==> !projects[i].featured) ==>
      r == Take(projects, 8)
  {
    var featured := Take(FeaturedOnly(projects), 8);
    if |featured| == 0 then
      assert forall i :: 0 <= i < |projects| ==> !projects[i].featured;
      Take(projects, 8)
    else
      assert featured[0] in projects && featured[0].featured;
      featured
  }

  /** The selection is always drawn from the projects in their order. */
  lemma SelectFeaturedKeepsOrder(projects: seq<Project>)
    ensures IsSubsequence(SelectFeatured(projects), projects)
  {
    var f := FeaturedOnly(projects);
    FilterIsSubsequence(projects, (p: Project) => p.featured);
    TakeIsSubsequence(f, 8);
    TakeIsSubsequence(projects, 8);
    SubsequenceTransitive(Take(f, 8), f, projects);
  }

  lemma {:induction false} TakeIsSubsequence<T>(xs: seq<T>, k: nat)
    ensures IsSubsequence(Take(xs, k), xs)
  {
    if xs != [] && k > 0 {
      TakeIsSubsequence(xs[1..], k - 1);
      assert Take(xs, k)[1..] == Take(xs[1..], k - 1);
    }
  }

  lemma {:induction false} SubsequenceTransitive<T>(a: seq<T>, b: seq<T>, c: seq<T>)
    requires IsSubsequence(a, b) && IsSubsequence(b, c)
    ensures IsSubsequence(a, c)
    decreases |c|
  {
    if a != [] {
      assert b != [] && c != [];
      if b[0] == c[0] && IsSubsequence(b[1..], c[1..]) {
        if a[0] == b[0] && IsSubsequence(a[1..], b[1..]) {
          SubsequenceTransitive(a[1..], b[1..], c[1..]);
        } else {
          SubsequenceTransitive(a, b[1..], c[1..]);
        }
      } else {
        SubsequenceTransitive(a, b, c[1..]);
      }
    }
  }

  /* ---------------- Testimonials (data-loader.js:457) ---------------- */

  /** `[...testimonials, ...testimonials]`: the carousel track holds every
      testimonial twice, the second copy right after the first. */
  function Doubled<T>(testimonials: seq<T>): (r: seq<T>)
    ensures |r| == 2 * |testimonials|
    ensures forall i :: 0 <= i < |testimonials| ==>
      r[i] == testimonials[i] && r[i + |testimonials|] == testimonials[i]
  {
    testimonials + testimonials
  }

  /* ---------------- Services (data-loader.js:210, 219-242) ---------------- */

  /** `services.slice(0, 4).map(s => s.title)`: the footer's service links. */
  function FooterServices(services: seq<Service>): (r: seq<string>)
    ensures |r| == if |services| < 4 then |services| else 4
    ensures forall i :: 0 <= i < |r| ==> r[i] == services[i].title
  {
    var first := Take(services, 4);
    seq(|first|, i requires 0 <= i < |first| => first[i].title)
  }

  /** An `<option>` of the contact form's service dropdown. */
  datatype Choice = Choice(value: string, text: string)

  /** The dropdown after `renderServices`: the page's existing empty-valued
      option (given by its text) or a new "Select Service" one, then one
      option per service title, then "Other". */
  function ServiceOptions(existingDefault: Option<string>, services: seq<Service>): (r: seq<Choice>)
    ensures |r| == |services| + 2
    ensures r[0] == Choice("", existingDefault.GetOr("Select Service"))
    ensures forall i :: 0 <= i < |services| ==> r[i + 1] == Choice(services[i].title, services[i].title)
    ensures r[|r| - 1] == Choice("Other", "Other")
  {
    [Choice("", existingDefault.GetOr("Select Service"))]
    + seq(|services|, i requires 0 <= i < |services| => Choice(services[i].title, services[i].title))
    + [Choice("Other", "Other")]
  }

  /* ---------------- Phone links (data-loader.js:78) ---------------- */

  predicate IsDialChar(c: char) {
    IsDigit(c) || c == '+'
  }

  /** `phone.replace(/[^0-9+]/g, '')`: the number used in the `tel:` link. */
  function TelNumber(phone: string): (r: string)
    ensures forall i :: 0 <= i < |r| ==> IsDialChar(r[i])
    ensures forall i :: 0 <= i < |phone| && IsDialChar(phone[i]) ==> phone[i] in r
  {
    Filter(phone, IsDialChar)
  }

  /** The `tel:` number keeps the dial characters of the displayed number in
      their order. */
  lemma TelNumberKeepsOrder(phone: string)
    ensures IsSubsequence(TelNumber(phone), phone)
  {
    FilterIsSubsequence(phone, IsDialChar);
  }

  /** The cleaning works character by character: a single character stays
      exactly when it is a digit or `+`, and the number for a concatenation
      is the concatenation of the numbers. So every dial character is kept
      as often as it occurs, and nothing else. */
  lemma TelNumberDistributes(a: string, b: string, c: char)
    ensures TelNumber(a + b) == TelNumber(a) + TelNumber(b)
    ensures TelNumber([c]) == if IsDialChar(c) then [c] else []
  {
    FilterConcat(a, b, IsDialChar);
  }

  /* ---------------- Hero title (data-loader.js:44-54) ---------------- */

  /** `s.split('\n')`. */
  function SplitLines(s: string): (r: seq<string>)
    ensures |r| >= 1
    ensures forall k :: 0 <= k < |r| ==> '\n' !in r[k]
  {
    if s == [] then [""]
    else
      var rest := SplitLines(s[1..]);
      if s[0] == '\n' then [""] + rest
      else [[s[0]] + rest[0]] + rest[1..]
  }

  /** `lines.join('\n')`. */
  function JoinLines(lines: seq<string>): (r: string)
    requires |lines| >= 1
  {
    if |lines| == 1 then lines[0] else lines[0] + "\n" + JoinLines(lines[1..])
  }

  /** Joining a first line to at least one more puts a line feed
      between them. */
  lemma JoinLinesCons(first: string, rest: seq<string>)
    requires |rest| >= 1
    ensures JoinLines([first] + rest) == first + "\n" + JoinLines(rest)
  {
    assert ([first] + rest)[1..] == rest;
  }

  /** A character put in front of the first line comes first in the
      joined text. */
  lemma JoinLinesPrefix(c: char, lines: seq<string>)
    requires |lines| >= 1
    ensures JoinLines([[c] + lines[0]] + lines[1..]) == [c] + JoinLines(lines)
  {
    var moved := [[c] + lines[0]] + lines[1..];
    if |lines| > 1 {
      var x, y := lines[0], JoinLines(lines[1..]);
      assert moved[0] == [c] + x && moved[1..] == lines[1..];
      assert JoinLines(moved) == (([c] + x) + "\n") + y;
      ConsConcat(c, x, "\n", y);
    }
  }

  /** Putting an element in front of the first of three pieces is putting
      it in front of their concatenation. */
  lemma ConsConcat<T>(c: T, x: seq<T>, sep: seq<T>, y: seq<T>)
    ensures (([c] + x) + sep) + y == [c] + ((x + sep) + y)
  {
  }

  /** Splitting at line breaks loses nothing: joining the lines back gives
      the title. */
  lemma {:induction false} SplitLinesRoundTrip(s: string)
    ensures JoinLines(SplitLines(s)) == s
  {
    if s != [] {
      SplitLinesRoundTrip(s[1..]);
      var rest := SplitLines(s[1..]);
      assert s == [s[0]] + s[1..];
      if s[0] == '\n' {
        JoinLinesCons("", rest);
      } else {
        JoinLinesPrefix(s[0], rest);
      }
    }
  }

  /** The characters `String.prototype.trim` removes: ECMAScript's
      WhiteSpace (tab, vertical tab, form feed, space, no-break space, the
      byte-order mark and the Unicode space separators) and LineTerminator
      (line feed, carriage return, line and paragraph separators). */
  predicate IsJsSpace(c: char) {
    var n := c as int;
    n == 0x09 || n == 0x0A || n == 0x0B || n == 0x0C || n == 0x0D || n == 0x20
    || n == 0xA0 || n == 0x1680 || (0x2000 <= n <= 0x200A) || n == 0x2028 || n == 0x2029
    || n == 0x202F || n == 0x205F || n == 0x3000 || n == 0xFEFF
  }

  /** Where the part of `s` that stripping keeps begins: the first
      position from `i` on whose character `drop` does not pick. */
  function KeptStart(s: string, drop: char -> bool, i: nat): (a: nat)
    requires i <= |s|
    ensures i <= a <= |s|
    ensures forall k :: i <= k < a ==> drop(s[k])
    ensures a < |s| ==> !drop(s[a])
    decreases |s| - i
  {
    if i < |s| && drop(s[i]) then KeptStart(s, drop, i + 1) else i
  }

  /** Where the kept part ends: the last position down to `a` after a
      character that `drop` does not pick. */
  function KeptEnd(s: string, drop: char -> bool, a: nat, j: nat): (b: nat)
    requires a <= j <= |s|
    ensures a <= b <= j
    ensures forall k :: b <= k < j ==> drop(s[k])
    ensures b > a ==> !drop(s[b - 1])
    decreases j
  {
    if j > a && drop(s[j - 1]) then KeptEnd(s, drop, a, j - 1) else j
  }

  /** `s` without the characters `drop` picks at either end. */
  function Strip(s: string, drop: char -> bool): (r: string)
    ensures r != [] ==> !drop(r[0]) && !drop(r[|r| - 1])
  {
    var a := KeptStart(s, drop, 0);
    var b := KeptEnd(s, drop, a, |s|);
    s[a..b]
  }

  /** Stripping removes picked characters at both ends and nothing else:
      the result is the part of `s` between the first and the last
      character `drop` does not pick, and everything outside it is picked. */
  lemma StripKeepsInterior(s: string, drop: char -> bool)
    ensures var a := KeptStart(s, drop, 0);
      var b := KeptEnd(s, drop, a, |s|);
      0 <= a <= b <= |s| && Strip(s, drop) == s[a..b] &&
      (forall i :: 0 <= i < a ==> drop(s[i])) &&
      (forall i :: b <= i < |s| ==> drop(s[i]))
  {
  }

  /** `line.trim()`. */
  function Trim(s: string): (r: string)
    ensures r != [] ==> !IsJsSpace(r[0]) && !IsJsSpace(r[|r| - 1])
  {
    Strip(s, IsJsSpace)
  }

  /** `trim` removes white space at both ends and nothing else: the result
      is a contiguous part of the line with only white space around it. */
  lemma TrimKeepsInterior(s: string)
    ensures exists a, b :: (0 <= a <= b <= |s| && Trim(s) == s[a..b] &&
      (forall i :: 0 <= i < a ==> IsJsSpace(s[i])) &&
      (forall i :: b <= i < |s| ==> IsJsSpace(s[i])))
  {
    StripKeepsInterior(s, IsJsSpace);
    var a := KeptStart(s, IsJsSpace, 0);
    var b := KeptEnd(s, IsJsSpace, a, |s|);
    assert 0 <= a <= b <= |s| && Trim(s) == s[a..b] &&
      (forall i :: 0 <= i < a ==> IsJsSpace(s[i])) &&
      (forall i :: b <= i < |s| ==> IsJsSpace(s[i]));
  }

  /** A node that `renderHero` appends to the title element. */
  datatype TitleNode = Line(text: string) | Break

  /** One `hero-title-line` span per (trimmed) line, with a `<br>` after
      every line but the last (`index < titleLines.length - 1`). */
  function TitleLayout(texts: seq<string>): (r: seq<TitleNode>)
    requires |texts| >= 1
    ensures |r| == 2 * |texts| - 1
    ensures r[0] == Line(texts[0]) && r[|r| - 1] == Line(texts[|texts| - 1])
    decreases |texts|
  {
    if |texts| == 1 then [Line(texts[0])]
    else [Line(texts[0]), Break] + TitleLayout(texts[1..])
  }

  /** The layout puts line `k` at place `2k` and a break between each two
      neighbouring lines, and nowhere else. */
  lemma TitleLayoutAlternates(texts: seq<string>)
    requires |texts| >= 1
    ensures forall k :: 0 <= k < |texts| ==> TitleLayout(texts)[2 * k] == Line(texts[k])
    ensures forall k :: 0 <= k < |texts| - 1 ==> TitleLayout(texts)[2 * k + 1] == Break
  {
    forall k | 0 <= k < |texts| ensures TitleLayout(texts)[2 * k] == Line(texts[k]) {
      TitleLineAt(texts, k);
    }
    forall k | 0 <= k < |texts| - 1 ensures TitleLayout(texts)[2 * k + 1] == Break {
      TitleBreakAt(texts, k);
    }
  }

  /** Line `k` sits at place `2k`. */
  lemma {:induction false} TitleLineAt(texts: seq<string>, k: nat)
    requires k < |texts|
    ensures TitleLayout(texts)[2 * k] == Line(texts[k])
    decreases k
  {
    if k > 0 {
      var r, rest, j := TitleLayout(texts), texts[1..], k - 1;
      TitleLineAt(rest, j);
      assert r[2..] == TitleLayout(rest);
      assert rest[j] == texts[k];
      assert r[2 * k] == r[2..][2 * j];
    }
  }

  /** The break after line `k` sits at place `2k + 1`. */
  lemma {:induction false} TitleBreakAt(texts: seq<string>, k: nat)
    requires k < |texts| - 1
    ensures TitleLayout(texts)[2 * k + 1] == Break
    decreases k
  {
    var r, rest := TitleLayout(texts), texts[1..];
    if k > 0 {
      var j := k - 1;
      TitleBreakAt(rest, j);
      assert r[2..] == TitleLayout(rest);
      assert r[2 * k + 1] == r[2..][2 * j + 1];
    } else {
      assert r == [Line(texts[0]), Break] + TitleLayout(rest);
    }
  }

  /** `lines.map(line => line.trim())`. */
  function TrimAll(lines: seq<string>): (r: seq<string>)
    ensures |r| == |lines|
  {
    seq(|lines|, k requires 0 <= k < |lines| => Trim(lines[k]))
  }

  /** The hero title: `(data.title || '').split('\n')`, each line trimmed,
      laid out as above; a missing title gives one empty line. */
  function HeroTitle(title: Option<string>): (r: seq<TitleNode>)
    ensures |r| == 2 * |SplitLines(title.GetOr(""))| - 1
  {
    var lines := TrimAll(SplitLines(title.GetOr("")));
    TitleLayout(lines)
  }

  /** A missing title shows a single empty line and no break. */
  lemma MissingTitleIsOneEmptyLine(title: Option<string>)
    requires title.None?
    ensures HeroTitle(title) == [Line("")]
  {
    var text := title.GetOr("");
    assert text == [];
    assert SplitLines(text) == [""];
    assert Trim("") == "";
    assert TrimAll([""]) == [""];
  }

  /** Each node of the hero title is the trimmed line the title holds at
      that place, or the break between two lines; the lines are exactly the
      title cut at its line feeds. */
  lemma HeroTitleShowsEachLine(title: string)
    ensures var lines := SplitLines(title);
      var r := HeroTitle(Some(title));
      |r| == 2 * |lines| - 1 &&
      JoinLines(lines) == title &&
      (forall k :: 0 <= k < |lines| ==> r[2 * k] == Line(Trim(lines[k]))) &&
      (forall k :: 0 <= k < |lines| - 1 ==> r[2 * k + 1] == Break)
  {
    var lines := SplitLines(title);
    var trimmed := TrimAll(lines);
    var r := TitleLayout(trimmed);
    assert Some(title).GetOr("") == title;
    assert HeroTitle(Some(title)) == r;
    SplitLinesRoundTrip(title);
    TitleLayoutAlternates(trimmed);
    forall k | 0 <= k < |lines| ensures r[2 * k] == Line(Trim(lines[k])) {
      assert trimmed[k] == Trim(lines[k]);
    }
  }
}

=== FILE: rotation.dfy ===
/**
  What the three rotators of js/data-loader.js have in common: circular
  index arithmetic, the row of "active" flags that marks the shown item,
  and the page-wide list of `.slider-dot` buttons that two of them share.
 */
module Rotation {
  import opened JsValues

  /** `(i + direction + n) % n`: the featured slider's next index among
      `n` slides (its index is always a number, never NaN). */
  function Wrap(i: int, direction: int, n: nat): (r: int)
    requires n > 0
    ensures i + direction + n >= 0 ==> 0 <= r < n
  {
    JsRem(i + direction + n, n)
  }

  /** `(current + direction + total) % total` as the certificate slider and
      the training rotator compute it: their index may be NaN and their
      count may be 0. */
  function StepNum(current: Num, direction: int, total: nat): (r: Num)
    ensures total == 0 || current.NaN? ==> r == NaN
    ensures total > 0 && current.Int? ==> r == Int(Wrap(current.v, direction, total))
  {
    Rem(Plus(Plus(current, direction), total), total)
  }

  /** `(current + 1) % total`, the auto-rotate tick of the same two
      rotators: it leaves out the `+ total` of `StepNum`. */
  function TickNum(current: Num, total: nat): (r: Num)
    ensures total == 0 || current.NaN? ==> r == NaN
    ensures total > 0 && current.Int? ==> r.Int?
    ensures total > 0 && current.Int? && current.v >= 0 ==> r.Int? && 0 <= r.v < total
  {
    Rem(Plus(current, 1), total)
  }

  /** Dafny's `%` on the two ranges that index arithmetic reaches. */
  lemma ModNearRange(x: int, n: nat)
    requires n > 0 && 0 <= x <= 2 * n
    ensures x % n == if x < n then x else if x < 2 * n then x - n else 0
  {
    if x == 2 * n {
      assert x / n * n + x % n == 2 * n;
    }
  }

  /** One step forward: the next index, or the first after the last. */
  lemma WrapForward(i: int, n: nat)
    requires n > 0 && 0 <= i < n
    ensures Wrap(i, 1, n) == if i + 1 < n then i + 1 else 0
  {
    ModNearRange(i + 1 + n, n);
  }

  /** One step back: the previous index, or the last before the first. */
  lemma WrapBackward(i: int, n: nat)
    requires n > 0 && 0 <= i < n
    ensures Wrap(i, -1, n) == if i > 0 then i - 1 else n - 1
  {
    ModNearRange(i - 1 + n, n);
  }

  /** The tick and `StepNum(_, 1, _)` agree on an index in range. */
  lemma TickIsStepForward(i: int, n: nat)
    requires n > 0 && 0 <= i < n
    ensures TickNum(Int(i), n) == StepNum(Int(i), 1, n)
  {
    WrapForward(i, n);
    ModNearRange(i + 1, n);
  }

  /** `changeSlide(-1)` from the first item shows the last one. */
  lemma BackFromFirstIsLast(n: nat)
    requires n > 0
    ensures Wrap(0, -1, n) == n - 1
  {
    WrapBackward(0, n);
  }

  /** `changeSlide(-1)` undoes `changeSlide(1)`, and the other way round. */
  lemma BackUndoesForward(i: int, n: nat)
    requires n > 0 && 0 <= i < n
    ensures Wrap(Wrap(i, 1, n), -1, n) == i
    ensures Wrap(Wrap(i, -1, n), 1, n) == i
  {
    WrapForward(i, n);
    WrapBackward(i, n);
    WrapBackward(Wrap(i, 1, n), n);
    WrapForward(Wrap(i, -1, n), n);
  }

  /** The index after `k` steps of `+1` from `i`. */
  function Advance(i: int, k: nat, n: nat): (r: int)
    requires n > 0 && 0 <= i < n
    ensures 0 <= r < n
  {
    if k == 0 then i else Wrap(Advance(i, k - 1, n), 1, n)
  }

  /** Before reaching the end, `k` steps of `+1` add `k`. */
  lemma {:induction false} AdvanceWithinRange(i: int, k: nat, n: nat)
    requires n > 0 && 0 <= i && i + k < n
    ensures Advance(i, k, n) == i + k
  {
    if k > 0 {
      AdvanceWithinRange(i, k - 1, n);
      WrapForward(i + k - 1, n);
    }
  }

  /** `a` steps followed by `b` steps are `a + b` steps. */
  lemma {:induction false} AdvanceSplits(i: int, a: nat, b: nat, n: nat)
    requires n > 0 && 0 <= i < n
    ensures Advance(i, a + b, n) == Advance(Advance(i, a, n), b, n)
  {
    if b > 0 {
      AdvanceSplits(i, a, b - 1, n);
    }
  }

  /** `n` successive `+1` steps bring a rotator of `n` items back to where
      it started. */
  lemma FullCycleReturns(i: int, n: nat)
    requires n > 0 && 0 <= i < n
    ensures Advance(i, n, n) == i
  {
    var toLast := n - 1 - i;
    AdvanceWithinRange(i, toLast, n);
    AdvanceSplits(i, toLast, 1, n);
    WrapForward(n - 1, n);
    assert Advance(i, toLast + 1, n) == 0;
    AdvanceSplits(i, toLast + 1, i, n);
    if i > 0 {
      AdvanceWithinRange(0, i, n);
    }
  }

  /** Exactly the flag at `i` is set. */
  ghost predicate ExactlyActive(flags: seq<bool>, i: int) {
    0 <= i < |flags| && forall j :: 0 <= j < |flags| ==> (flags[j] <==> j == i)
  }

  /** The flags a freshly rendered row of items or dots starts with:
      `index === 0 ? 'active' : ''`. */
  function FirstActive(count: nat): (r: seq<bool>)
    ensures |r| == count
    ensures count > 0 ==> ExactlyActive(r, 0)
    ensures count == 0 ==> r == []
  {
    seq(count, j => j == 0)
  }

  /** `dots.forEach((dot, j) => dot.classList.toggle('active', j === current))`:
      the flags of `count` dots after a toggle pass. */
  function Highlight(count: nat, current: Num): (r: seq<bool>)
    ensures |r| == count
    ensures current.Int? && 0 <= current.v < count ==> ExactlyActive(r, current.v)
    ensures current.NaN? || current.v < 0 || current.v >= count ==>
      forall j :: 0 <= j < count ==> !r[j]
  {
    seq(count, j => current == Int(j))
  }

  /** The page-wide list of `.slider-dot` buttons, in document order: true
      where the button carries the class `active`. The featured-project
      slider and the certificate slider both add their dots to this one
      list and both index into it. */
  class DotList {
    var active: seq<bool>

    constructor ()
      ensures active == []
    {
      active := [];
    }

    /** A pass of `classList.toggle('active', j === current)` over every
        dot in the list, one dot at a time. */
    method Toggle(current: Num)
      modifies this
      ensures active == Highlight(|old(active)|, current)
    {
      var n := |active|;
      var j := 0;
      while j < n
        invariant 0 <= j <= n && |active| == n
        invariant forall m :: 0 <= m < j ==> active[m] == (current == Int(m))
      {
        active := active[j := current == Int(j)];
        j := j + 1;
      }
    }
  }
}

=== FILE: sequences.dfy ===
/**
  The array operations the renderers build their lists from: `filter`,
  `slice(0, k)`, and the order-preserving subsequence relation that both
  of them respect.
 */
module Sequences {

  /** `b` contains the elements of `a`, in the same order, possibly with
      other elements in between. */
  ghost predicate IsSubsequence<T>(a: seq<T>, b: seq<T>)
    decreases |b|
  {
    a == [] ||
    (b != [] && ((a[0] == b[0] && IsSubsequence(a[1..], b[1..])) || IsSubsequence(a, b[1..])))
  }

  /** `xs.filter(keep)`: the elements that satisfy `keep`, in their original
      order. */
  function Filter<T>(xs: seq<T>, keep: T -> bool): (r: seq<T>)
    ensures |r| <= |xs|
    ensures forall i :: 0 <= i < |r| ==> keep(r[i]) && r[i] in xs
    ensures forall i :: 0 <= i < |xs| && keep(xs[i]) ==> xs[i] in r
  {
    if xs == [] then [] else (if keep(xs[0]) then [xs[0]] else []) + Filter(xs[1..], keep)
  }

  /** `xs.slice(0, k)`: the first `k` elements, or all of them when there
      are fewer. */
  function Take<T>(xs: seq<T>, k: nat): (r: seq<T>)
    ensures |r| == if |xs| < k then |xs| else k
    ensures forall i :: 0 <= i < |r| ==> r[i] == xs[i]
  {
    if |xs| < k then xs else xs[..k]
  }

  /** Filtering keeps the original order. */
  lemma {:induction false} FilterIsSubsequence<T>(xs: seq<T>, keep: T -> bool)
    ensures IsSubsequence(Filter(xs, keep), xs)
  {
    if xs != [] {
      FilterIsSubsequence(xs[1..], keep);
      var r := Filter(xs, keep);
      if keep(xs[0]) {
        assert r[0] == xs[0] && r[1..] == Filter(xs[1..], keep);
      } else {
        assert r == Filter(xs[1..], keep);
      }
    }
  }

  /** A filter whose test every element passes returns its input. */
  lemma {:induction false} FilterKeepsAll<T>(xs: seq<T>, keep: T -> bool)
    requires forall i :: 0 <= i < |xs| ==> keep(xs[i])
    ensures Filter(xs, keep) == xs
  {
    if xs != [] {
      FilterKeepsAll(xs[1..], keep);
      assert [xs[0]] + xs[1..] == xs;
    }
  }

  /** `Filter` distributes over concatenation. */
  lemma {:induction false} FilterConcat<T>(a: seq<T>, b: seq<T>, keep: T -> bool)
    ensures Filter(a + b, keep) == Filter(a, keep) + Filter(b, keep)
  {
    if a != [] {
      assert (a + b)[0] == a[0];
      assert (a + b)[1..] == a[1..] + b;
      FilterConcat(a[1..], b, keep);
      var h := if keep(a[0]) then [a[0]] else [];
      assert Filter(a + b, keep) == h + Filter(a[1..] + b, keep);
      assert Filter(a, keep) == h + Filter(a[1..], keep);
    } else {
      assert a + b == b;
    }
  }

  /** `Filter` is empty exactly when nothing passes. */
  lemma {:induction false} FilterEmpty<T>(xs: seq<T>, keep: T -> bool)
    ensures Filter(xs, keep) == [] <==> forall i :: 0 <= i < |xs| ==> !keep(xs[i])
  {
    if xs != [] {
      FilterEmpty(xs[1..], keep);
      assert forall i :: 1 <= i < |xs| ==> xs[i] == xs[1..][i - 1];
    }
  }
}

=== FILE: training_rotator.dfy ===
/**
  The training-course rotator of js/data-loader.js: the module variables
  `currentTraining` and `trainingsData`, the displayed course, the
  `.training-dot` buttons, and the handlers `changeTraining`,
  `goToTraining`, `updateTrainingDisplay` and the auto-rotate tick.
 */
module TrainingRotator {
  import opened JsValues
  import opened Rotation

  /** The fields of a training course that the display shows. */
  datatype Training = Training(title: string, subtitle: string, description: string, image: string)

  /** What the handlers read and write: `currentTraining`, the course whose
      fields are on display (none before the first display), and the active
      flags of the `.training-dot` buttons. */
  datatype View = View(current: Num, shown: Option<Training>, dots: seq<bool>)

  /** `updateTrainingDisplay`: `trainingsData[currentTraining]` is
      `undefined` unless the index is an integer in range, and reading its
      `title` then throws before anything is displayed. Otherwise the
      course is displayed and exactly its dot is marked. */
  function Update(s: View, trainings: seq<Training>): (r: Step<View>)
    ensures r.Ok? <==> s.current.Int? && 0 <= s.current.v < |trainings|
    ensures r.Threw? ==> r.state == s
    ensures r.Ok? ==> r.state.current == s.current && r.state.shown == Some(trainings[s.current.v])
    ensures r.Ok? ==> |r.state.dots| == |s.dots|
    ensures r.Ok? && s.current.v < |s.dots| ==> ExactlyActive(r.state.dots, s.current.v)
  {
    if s.current.Int? && 0 <= s.current.v < |trainings| then
      Ok(View(s.current, Some(trainings[s.current.v]), Highlight(|s.dots|, s.current)))
    else
      Threw(s)
  }

  /** `changeTraining(direction)`: `(currentTraining + direction + n) % n`
      and a display update. */
  function AfterChange(s: View, trainings: seq<Training>, direction: int): (r: Step<View>)
    ensures |trainings| == 0 ==> r.Threw? && r.state.current == NaN
    ensures |trainings| > 0 && s.current.Int? ==>
      r.state.current == Int(Wrap(s.current.v, direction, |trainings|))
    ensures r.Threw? ==> r.state.shown == s.shown && r.state.dots == s.dots
  {
    Update(s.(current := StepNum(s.current, direction, |trainings|)), trainings)
  }

  /** `goToTraining(index)`: the index is taken as given. A click on a dot
      in range shows that course with exactly its dot active. */
  function AfterGoTo(s: View, trainings: seq<Training>, index: int): (r: Step<View>)
    ensures r.state.current == Int(index)
    ensures r.Ok? <==> 0 <= index < |trainings|
    ensures r.Threw? ==> r.state.shown == s.shown && r.state.dots == s.dots
    ensures 0 <= index < |trainings| && |s.dots| == |trainings| ==> Shows(r.state, trainings, index)
  {
    Update(s.(current := Int(index)), trainings)
  }

  /** One tick of the six-second auto-rotate interval: `(currentTraining +
      1) % n` and a display update. */
  function AfterTick(s: View, trainings: seq<Training>): (r: Step<View>)
    ensures |trainings| == 0 ==> r.Threw? && r.state.current == NaN
    ensures |trainings| > 0 && s.current.Int? && s.current.v >= 0 ==>
      r.Ok? && r.state.current.Int? && 0 <= r.state.current.v < |trainings|
    ensures r.Threw? ==> r.state.shown == s.shown && r.state.dots == s.dots
  {
    Update(s.(current := TickNum(s.current, |trainings|)), trainings)
  }

  /** The rotator shows course `i`: the index is `i`, course `i` is on
      display, and exactly dot `i` is active. */
  ghost predicate Shows(s: View, trainings: seq<Training>, i: int) {
    s.current == Int(i) && 0 <= i < |trainings| && |s.dots| == |trainings| &&
    s.shown == Some(trainings[i]) && ExactlyActive(s.dots, i)
  }

  /** A step of one either way and a tick each move the display to the
      neighbouring course, circularly, keeping exactly one dot active. */
  lemma StepsKeepOneShown(s: View, trainings: seq<Training>, i: int, direction: int)
    requires Shows(s, trainings, i)
    requires direction == 1 || direction == -1
    ensures AfterChange(s, trainings, direction).Ok?
    ensures Shows(AfterChange(s, trainings, direction).state, trainings, Wrap(i, direction, |trainings|))
    ensures AfterTick(s, trainings) == AfterChange(s, trainings, 1)
  {
    TickIsStepForward(i, |trainings|);
  }

  /** An index out of range, passed to `goToTraining` by a direct call
      (the page's dots only pass indices in range), makes that call throw
      but does not stick: from any index that is not negative, the next
      tick or forward step shows a course again. The featured slider, by
      contrast, stays stuck (`FeaturedSlider.OutOfRangeSticks`). */
  lemma BadIndexRecovers(s: View, trainings: seq<Training>, index: int)
    requires |trainings| > 0 && |s.dots| == |trainings|
    requires index >= |trainings|
    ensures AfterGoTo(s, trainings, index).Threw?
    ensures var t := AfterGoTo(s, trainings, index).state;
      AfterTick(t, trainings).Ok? && AfterChange(t, trainings, 1).Ok? &&
      Shows(AfterTick(t, trainings).state, trainings, AfterTick(t, trainings).state.current.v)
  {
    var t := AfterGoTo(s, trainings, index).state;
    var n := |trainings|;
    var next := AfterTick(t, trainings).state;
    assert next.current.Int? && 0 <= next.current.v < n;
    assert 0 <= Wrap(index, 1, n) < n;
  }

  /** The rotator as a page object. `wired` says whether the controls, the
      dot handlers and the interval have been set up. */
  class Rotator {
    var current: Num
    var trainings: seq<Training>
    var shown: Option<Training>
    const dots: DotList
    var wired: bool

    function Snapshot(): View
      reads this, dots
    {
      View(current, shown, dots.active)
    }

    /** The index is a number, and handlers exist only for a non-empty
        list of courses. */
    ghost predicate Valid()
      reads this
    {
      current.Int? && (wired ==> |trainings| > 0)
    }

    /** The module state before `renderTrainingCourses`: `currentTraining =
        0`, `trainingsData = []`, no dots. */
    constructor ()
      ensures Valid() && fresh(dots)
      ensures current == Int(0) && trainings == [] && shown == None && dots.active == [] && !wired
    {
      current := Int(0);
      trainings := [];
      shown := None;
      dots := new DotList();
      wired := false;
    }

    /** `updateTrainingDisplay`. */
    method UpdateDisplay() returns (threw: bool)
      modifies this, dots
      ensures var r := Update(old(Snapshot()), old(trainings));
        threw == r.Threw? && Snapshot() == r.state
      ensures trainings == old(trainings) && wired == old(wired)
    {
      if !(current.Int? && 0 <= current.v < |trainings|) {
        return true;
      }
      shown := Some(trainings[current.v]);
      dots.Toggle(current);
      threw := false;
    }

    /** `renderTrainingCourses` with the loaded list: the first display
        comes before any dot exists and throws on an empty list, which ends
        the render with no controls, no dots and no interval. Otherwise the
        dots are created, the first one active, and the handlers wired. */
    method Render(data: seq<Training>) returns (threw: bool)
      requires Valid() && !wired
      modifies this, dots
      ensures Valid() && trainings == data
      ensures threw <==> !(old(current).Int? && 0 <= old(current).v < |data|)
      ensures threw ==> Snapshot() == old(Snapshot()) && !wired
      ensures !threw ==> wired && current == old(current)
      ensures !threw ==> shown == Some(data[old(current).v]) && dots.active == FirstActive(|data|)
    {
      trainings := data;
      threw := UpdateDisplay();
      if threw {
        return;
      }
      dots.active := FirstActive(|trainings|);
      wired := true;
    }

    /** `changeTraining(direction)`, from the prev/next buttons. */
    method ChangeTraining(direction: int) returns (threw: bool)
      requires Valid() && wired
      modifies this, dots
      ensures Valid() && wired && trainings == old(trainings)
      ensures var r := AfterChange(old(Snapshot()), trainings, direction);
        threw == r.Threw? && Snapshot() == r.state
    {
      current := StepNum(current, direction, |trainings|);
      threw := UpdateDisplay();
    }

    /** `goToTraining(index)`, from a dot click. */
    method GoToTraining(index: int) returns (threw: bool)
      requires Valid() && wired
      modifies this, dots
      ensures Valid() && wired && trainings == old(trainings)
      ensures var r := AfterGoTo(old(Snapshot()), trainings, index);
        threw == r.Threw? && Snapshot() == r.state
    {
      current := Int(index);
      threw := UpdateDisplay();
    }

    /** One tick of the auto-rotate interval. */
    method Tick() returns (threw: bool)
      requires Valid() && wired
      modifies this, dots
      ensures Valid() && wired && trainings == old(trainings)
      ensures var r := AfterTick(old(Snapshot()), trainings);
        threw == r.Threw? && Snapshot() == r.state
    {
      current := TickNum(current, |trainings|);
      threw := UpdateDisplay();
    }
  }

  /** Because a render over an empty list throws before any handler is
      wired, the `% 0` of the step and the tick cannot occur: with handlers
      in place the index never becomes NaN. */
  lemma NoNaNOnceWired(s: View, trainings: seq<Training>, direction: int)
    requires |trainings| > 0 && s.current.Int?
    ensures AfterChange(s, trainings, direction).state.current.Int?
    ensures AfterTick(s, trainings).state.current.Int?
  {
  }
}
